=== FILE: README.md ===
# rework: collection and form logic in Dafny

This project models the data logic of the `rework` React component library.
The rendering is not modelled. What remains is a set of pure transforms over
JavaScript values, each written as a Dafny function over one small value type:

- `JsValues` (values.dfy) holds the value type
  `Undef | Str | Int | Bool | Arr | Obj`. It also holds the JavaScript rules the
  components rely on: `String(v)` (`ToJsString`), property lookup with array and
  string `length` and index keys (`Prop`), truthiness, object spread, and the
  `find` / `filter` / `map` / `reduce` shapes shared by several components.
- `Validation` (validation.dfy) models the schema validator `validate` of
  components/form/helpers.js. It has two definitions. `Validate` is an
  order-free reference with one rule chain per schema key. `ValidateReduce` is
  the fold as written, over any key order. A lemma proves the two agree.
- `CollectionReducer` (reducer.dfy) models the six-action store reducer `items`
  of modules/reducers/base.js, plus its default case.
- `Drafts` (drafts.dfy) models the draft buffer `updatedItems`: pending record
  copies keyed by the string form of the record id.
- `ScrollList` (scroll_list.dfy) models the per-item draft overlay, the
  `editable` flag and the three forwarding handlers of
  components/crud/ScrollList.jsx.
- `ItemsList` (items_list.dfy) covers components/crud/ItemsList.jsx: the
  nested-collection workspace behind the modal (insert, remove, update, bulk
  update, save, cancel), the row rule for editing and errors, and the table's
  display text.
- `BaseForm` (base_form.dfy) models the form's error map and its confirm step
  (components/form/BaseForm.jsx).
- `FormWrapper` (form_wrapper.dfy) models the draft record holder
  (components/form/FormWrapper.jsx).
- `FormField` (field.dfy) covers the display text of a form field and the
  `name;id` option codec of its select controls (components/form/Field.jsx).
- `MaskedInput` (masked_input.dfy) covers the mask formatter `applyMask`, the
  slot counts and the keystroke step (components/form/MaskedInput.jsx).

Modelling choices that apply throughout:

- Strict equality `===` is structural equality on `Value`. For strings,
  booleans and integers of magnitude below 2^53 this is exact. For objects and
  arrays JavaScript compares identity instead.
- Numbers are mathematical integers (`Int`), where JavaScript has doubles.
- A JavaScript `Set` keeps the first of several equal primitives and the first
  of several references to one object. The reducer's RECEIVE and INSERT merge
  the old items with freshly decorated ones through a `Set`. No old item can
  equal a fresh object, so the `Set` can only drop repeats among the old items
  themselves. Both merges are modelled as the old items followed by the
  decorated ones. This is exact when `state.items` holds no two equal
  primitives and no object twice, which holds for every list the reducer
  builds from records.
- `cloneDeep`, `Immutable.from` and lodash `merge` become plain value copies,
  because Dafny values are immutable.
- The random id of `insertModalItem` (`Math.random().toString(36)`) is a
  parameter.
- Most calls that would throw in JavaScript are excluded by a precondition.
  Examples are reading `.length` of undefined, `unique` without a sibling list,
  and saving without a draft. Each such precondition names what the source
  dereferences. The one exception is an `undefined` list element or record
  whose `id` the source reads; "## Left out" lists those places.
- The RECEIVE guard follows the code's strict `state.items.length > page * limit`.

## Model

| member | source | states |
|---|---|---|
| Validation.Validate | components/form/helpers.js:1-35 | The error map has exactly one entry per schema key and no other key; `valid` holds exactly when every key's rule chain passed |
| Validation.CheckField | components/form/helpers.js:3-33 | A nested rule yields the nested map, with one entry per nested schema key. Otherwise the field passes exactly when its error is `{}`. A required field that is blank fails with the required message whatever its other rules say. A field with none of the four rules passes |
| Validation.ValidateReduce | components/form/helpers.js:2-34 | The fold's error map holds the accumulator's keys plus every enumerated key, and nothing else |
| Validation.Step | components/form/helpers.js:2-33 | One callback step adds the current key's rule-chain error, keeps every other error entry, and leaves the result valid exactly when it was valid and the key passed; an invalid accumulator stays invalid |
| Validation.ReduceFrom | components/form/helpers.js:2-34 | From any accumulator: `valid` is the accumulator's `valid` and every enumerated field passing; enumerated keys get their own field's error, and other keys keep the accumulator's entry |
| Validation.ReduceIsValidate | components/form/helpers.js:2-34 | The reduce as written, over ANY enumeration of the schema keys from `{valid: true, error: {}}`, equals the reference verdict, so the result does not depend on key order |
| Validation.FailingFieldForcesInvalid | components/form/helpers.js:8-31 | One failing field makes the fold invalid, whatever the accumulator and the other fields did |
| Validation.FindByField | components/form/helpers.js:21 | `items.find` returns a sibling that holds the value, or `undefined` exactly when no sibling does |
| Validation.ValidIffClean | components/form/helpers.js:33-34 | `valid` holds exactly when the error map, nested maps included, holds no message |
| Validation.CheckPassedIffClean | components/form/helpers.js:3-33 | A field's rule chain passes exactly when its error entry carries no message |
| Validation.RequiredRule | components/form/helpers.js:8-11 | `required` writes the required message exactly when the value is undefined, `''` or has length 0, and that failure makes the result invalid |
| Validation.EqualToRule | components/form/helpers.js:14-17 | Once past `required`, `equalTo` writes the mismatch message exactly when the value differs from the named field's value |
| Validation.UniqueRule | components/form/helpers.js:20-30 | Once past the earlier rules, `unique` writes the duplicate message exactly when some sibling holds the same value, and never with no siblings |
| Validation.RulePriority | components/form/helpers.js:3-33 | A nested field gets its sub-error map. Otherwise the entry is the first failing rule's message in the order required, equalTo, unique, else `{}` |
| Validation.NestedRule | components/form/helpers.js:3-6 | A nested field is validated on `item[key]` (or `{}` when falsy) with its own rule object as schema and no sibling list; its error is the sub-error map and its failure invalidates the result |
| Validation.PasswordConfirmationExample | components/form/helpers.js:14-17 | For the schema `{password: {}, confirm: {equalTo: 'password'}}` with two different values, only `confirm` reports the mismatch |
| CollectionReducer.KindOf | modules/reducers/base.js:14-72 | The switch resolves to "other" exactly when the type matches none of the six configured names, and to RECEIVE exactly when it is the RECEIVE name |
| CollectionReducer.DecorateReceived | modules/reducers/base.js:20 | A received item gains `error` and `key = item.id`, and the item's own fields win |
| CollectionReducer.DecorateInserted | modules/reducers/base.js:51 | An inserted item gains `error` and `key = item.id`, and the decoration wins over the item's fields |
| CollectionReducer.Reduce | modules/reducers/base.js:4-74 | An unknown type leaves the store as it is; RECEIVE_ONE yields the payload record; REMOVE, INSERT and UPDATE_ALL keep every store field except `items` |
| CollectionReducer.ReceiveGuard | modules/reducers/base.js:16-18 | RECEIVE leaves the store unchanged when it holds more than `page * limit` items |
| CollectionReducer.ReceiveAppends | modules/reducers/base.js:20-28 | Otherwise RECEIVE yields the old items, then each payload item decorated in order, with `total`, `page` and `limit` from the payload |
| CollectionReducer.ReceiveRepeatIsNoOp | modules/reducers/base.js:16-28 | A delivery that takes the store past `page * limit` is not applied twice |
| CollectionReducer.RemoveKeepsOthers | modules/reducers/base.js:30-32 | REMOVE keeps exactly the items whose id differs, in order, and an absent id changes nothing |
| CollectionReducer.UpdateReplaces | modules/reducers/base.js:34-47 | Paginated UPDATE keeps length and order and replaces every item with the payload's id. Singleton UPDATE merges the payload's fields into the store |
| CollectionReducer.InsertAppends | modules/reducers/base.js:49-54 | INSERT appends one decorated item at the end and leaves the existing items untouched |
| CollectionReducer.InsertThenRemove | modules/reducers/base.js:30-54 | INSERT of an item whose id no stored item has, then REMOVE of that id, gives back the original store |
| CollectionReducer.UpdateAllReplaces | modules/reducers/base.js:58-69 | UPDATE_ALL keeps length and order. An item whose id no payload record has is unchanged; a matching one becomes the last payload record with that id |
| CollectionReducer.ReceiveOneReplaces | modules/reducers/base.js:56-57 | RECEIVE_ONE replaces the whole store by the payload record |
| JsValues.FindById | components/crud/ItemsList.jsx:463-465 | `find(el => el.id === id)` returns the first element with the id, or nothing exactly when no element has it |
| JsValues.WithoutId | modules/reducers/base.js:31 | `filter(item => item.id !== id)` keeps exactly the elements whose id differs |
| JsValues.WithoutIdConcat | modules/reducers/base.js:31 | The filter distributes over concatenation, so kept elements keep their order |
| JsValues.ReplaceId | modules/reducers/base.js:39-45 | The id-matching `map` keeps length and replaces exactly the elements with the id |
| JsValues.IndexById | modules/reducers/base.js:59 | The payload index has one key per distinct id text of the payload |
| JsValues.IndexByIdLast | modules/reducers/base.js:59 | Each entry of the payload index is the LAST payload record with that id text |
| JsValues.ReplaceByIndex | modules/reducers/base.js:61-67 | The mapped list has the input's length; an element whose id text has an index entry becomes that entry, and every other element is kept |
| JsValues.ReplaceByIndexMeaning | modules/reducers/base.js:61-67 | The index-driven `map` keeps length and order, keeps unmatched elements and replaces matched ones by the last payload record with their id |
| Drafts.DraftOf | components/crud/ScrollList.jsx:42 | `updatedItems[id]` is the draft stored under the id's string form, else `undefined` |
| ScrollList.Overlay | components/crud/ScrollList.jsx:38 | `{...el, ...draft}` has the fields of both and takes each from the draft when the draft has it, else from the item; with no draft it is the item |
| ScrollList.EntryFor | components/crud/ScrollList.jsx:35-43 | An entry shows its item, is editable exactly when the item has a draft, and shows the item overlaid with that draft |
| ScrollList.EntriesFrom | components/crud/ScrollList.jsx:33-45 | The reduce keeps the accumulator as prefix and appends one entry per item, in item order |
| ScrollList.Entries | components/crud/ScrollList.jsx:33-45 | There is one entry per item, and entry `i` is the entry for item `i` |
| ScrollList.EntryMeaning | components/crud/ScrollList.jsx:33-45 | Entry `i` shows item `i`, is editable exactly when item `i` has a draft, and shows the overlay |
| ScrollList.ForwardedDraftMatchesEntry | components/crud/ScrollList.jsx:17-29 | Confirming forwards the draft the entry was rendered from, which is defined exactly when the entry is editable. Cancel and edit forward the whole buffer |
| ScrollList.OnUpdate | components/crud/ScrollList.jsx:17-21 | Confirming forwards the whole draft buffer and the item itself, with a defined draft exactly when the buffer holds one under the item's id, and then that draft |
| ScrollList.OnCancel | components/crud/ScrollList.jsx:23-25 | Cancelling forwards the whole draft buffer and the given id |
| ScrollList.OnEdit | components/crud/ScrollList.jsx:27-29 | Editing forwards the whole draft buffer and the item itself |
| FormField.GetText | components/form/Field.jsx:16-29 | Checkbox shows 'Sim' or 'Não' by truthiness, an empty select-multiple shows '', and select and unknown types show the value |
| FormField.JoinNamesFrom | components/form/Field.jsx:22-23 | Joining names onto an accumulator keeps the accumulator as a prefix, and an empty list leaves it unchanged |
| FormField.JoinNames | components/form/Field.jsx:22-23 | The `select-multiple` text is empty for an empty list, starts with the first record's name, and is exactly that name for a one-record list |
| FormField.JoinNamesFromNonEmpty | components/form/Field.jsx:23 | From a non-empty accumulator the fold appends ", " and each name in turn, empty names included |
| FormField.JoinNamesIsJoin | components/form/Field.jsx:22-23 | Unless the first name is empty, the select-multiple text is the names in order joined by ", "; only a leading empty name makes the fold differ from the join |
| FormField.RadioShowsOption | components/form/Field.jsx:18-19 | A radio field at index `n` shows `options[n]` |
| FormField.EncodeOption | components/form/Field.jsx:181 | An option value always contains the separator ';' |
| FormField.Split | components/form/Field.jsx:146 | `split` yields at least one part, and the whole text when the separator is absent |
| FormField.SplitAfterPlain | components/form/Field.jsx:146 | Splitting `a;b` with no ';' in `a` gives `a` followed by the parts of `b` |
| FormField.DecodeOption | components/form/Field.jsx:146 | `split(';')[1]` is `undefined` exactly when the text has no ';' |
| FormField.OptionRoundTrip | components/form/Field.jsx:146-189 | Decoding an encoded option recovers `${id}` when neither name nor id text contains ';' |
| FormField.FindByIdText | components/form/Field.jsx:146 | `find` by id text returns the first record whose id text matches, and finds one whenever one exists |
| FormField.SelectOnSelect | components/form/Field.jsx:146 | The chosen value is a record of the list whose stringified id equals the option's id part, and it is `undefined` exactly when no record has that id |
| FormField.SelectPicksEncodedItem | components/form/Field.jsx:146 | Choosing the option of `items[i]` picks the first record with the same id text, and `items[i]` itself when id texts are distinct |
| FormField.WithoutIdText | components/form/Field.jsx:159 | The deselect filter keeps exactly the elements whose id text differs |
| FormField.SelectMultipleOnDeselect | components/form/Field.jsx:159 | The new list is no longer than the old one and holds exactly the old elements whose stringified id differs from the option's id part |
| FormField.DeselectRemovesOption | components/form/Field.jsx:159 | Deselecting an item's option removes every element with its id text and keeps the rest |
| FormField.SelectMultipleOnSelectAsWritten | components/form/Field.jsx:158 | As written, selecting yields a string that starts with the option text, never a list |
| FormField.SelectMultipleAsWrittenLosesList | components/form/Field.jsx:158 | For every input the as-written handler differs from the intended list append |
| FormField.SelectMultipleAsWrittenExample | components/form/Field.jsx:158 | Choosing "a;1" from `[{name:'a', id:1}]` gives "a;1[object Object]" as written, and `[{name:'a', id:1}]` as intended |
| FormField.SelectMultipleOnSelect | components/form/Field.jsx:158 | The intended handler appends the chosen record to the list and keeps the earlier elements |
| ItemsList.ShowModal | components/crud/ItemsList.jsx:407-409 | Opening the modal stores the descriptor and the workspace |
| ItemsList.HideModal | components/crud/ItemsList.jsx:411-413 | Hiding the modal clears the descriptor and keeps the workspace |
| ItemsList.NewModalItem | components/crud/ItemsList.jsx:417 | The new element has `key`, `id` and `error` defaults (the fresh id, the fresh id, `modal.error`), and the item's own fields override them |
| ItemsList.InsertModalItem | components/crud/ItemsList.jsx:415-419 | Insert appends exactly that element at the end and leaves earlier elements untouched |
| ItemsList.RemoveModalItem | components/crud/ItemsList.jsx:422-427 | Remove keeps exactly the elements whose id differs, in order (the filter distributes over any split), and answers false |
| ItemsList.InsertThenRemove | components/crud/ItemsList.jsx:415-427 | Inserting a record without its own id under a fresh id, then removing that id, restores the workspace |
| ItemsList.UpdateModalItem | components/crud/ItemsList.jsx:430-439 | Update keeps length and order and replaces exactly the elements with the argument's id |
| ItemsList.UpdateWithSelfIsNoOp | components/crud/ItemsList.jsx:430-439 | Updating with an element whose id no other element shares changes nothing |
| ItemsList.ArrayHasNoId | components/crud/ItemsList.jsx:446 | An array has no `id` property, so `items.id` is `undefined` |
| ItemsList.IndexAsWritten | components/crud/ItemsList.jsx:443-447 | As written, the bulk-update index holds one key, "undefined", mapped to the last payload record |
| ItemsList.UpdateAllModalItemsAsWritten | components/crud/ItemsList.jsx:442-457 | As written, the bulk update keeps the workspace length and the modal |
| ItemsList.UpdateAllAsWrittenIgnoresIds | components/crud/ItemsList.jsx:442-457 | As written, only elements whose id prints as "undefined" change, and they all become the last payload record |
| ItemsList.UpdateAllAsWrittenExample | components/crud/ItemsList.jsx:442-457 | The workspace `[{id:'a'}]` bulk-updated with `[{id:'a', name:'z'}]` stays as it was, and the intended update replaces the element |
| ItemsList.UpdateAllModalItems | components/crud/ItemsList.jsx:442-457 | The intended bulk update keeps the workspace length and the modal |
| ItemsList.UpdateAllReplaces | components/crud/ItemsList.jsx:442-457 | An element whose id no payload record has is unchanged; a matching one becomes the last payload record with that id |
| ItemsList.SourceCollection | components/crud/ItemsList.jsx:462-463 | Given a draft of the parent record, the collection is the draft's field when that is truthy, else the committed parent record's field |
| ItemsList.DraftCollection | components/crud/ItemsList.jsx:462 | Given a draft of the parent record, which the source needs to avoid a TypeError, the collection read from an object draft is that draft's `collectionKey` field |
| ItemsList.SavedEntry | components/crud/ItemsList.jsx:466 | The saved entry is `modal.props` with `modal.key` set to the workspace |
| ItemsList.MergeEntry | components/crud/ItemsList.jsx:465-475 | When the lookup by id finds nothing or finds a falsy element, the entry is appended; otherwise length is kept and exactly the elements with the id become the entry |
| ItemsList.FalsyCarriesNoId | components/crud/ItemsList.jsx:465 | A falsy value (`undefined`, `0`, `''`, `false`) reads `.id` as `undefined` |
| ItemsList.AppendsOnlyWhenAbsent | components/crud/ItemsList.jsx:465 | When the id is defined or every element is truthy, the `!collection.find(...)` test holds exactly when no element carries the id |
| ItemsList.FalsyElementAppends | components/crud/ItemsList.jsx:465-466 | For the collection `[0]` and an entry without an id, the lookup finds `0`, and the entry is appended beside it |
| ItemsList.MergeEntryMatches | components/crud/ItemsList.jsx:465-475 | When the id is defined or every element is truthy, after a merge an element carries the id exactly when it is the merged entry |
| ItemsList.MergeEntryIsFound | components/crud/ItemsList.jsx:465-475 | When the id is defined or every element is truthy, looking the id up after a merge finds the merged entry |
| ItemsList.MergeEntryIdempotent | components/crud/ItemsList.jsx:465-475 | When the id is defined or every element is truthy, merging the same truthy entry twice is merging it once |
| ItemsList.SaveModalItems | components/crud/ItemsList.jsx:460-483 | Save hands `(modal.id, collectionKey, merged collection)` to the owner and closes the modal. The merged collection appends the saved entry when the lookup by `modal.props.id` finds nothing or a falsy element, and otherwise replaces by that id. When the id is defined or every element is truthy, the saved entry can be found in it |
| ItemsList.CancelModalItems | components/crud/ItemsList.jsx:485-491 | Cancel closes the modal with an empty workspace and descriptor |
| ItemsList.SaveAndCancelAgree | components/crud/ItemsList.jsx:478-486 | Save and cancel leave the same state |
| ItemsList.RowError | components/crud/ItemsList.jsx:368-372 | An editable row shows the draft's error for the column, any other row the record's |
| ItemsList.RowEditable | components/crud/ItemsList.jsx:368 | A row is editable exactly when the draft buffer has a defined entry under the string form of its record's id |
| ItemsList.Actions | components/crud/ItemsList.jsx:309-358 | A row offers confirm and cancel exactly when its record has a draft, and edit and remove otherwise. Confirm forwards the row's draft, the buffer and the record; cancel forwards the buffer and the record's id; edit forwards the buffer and the record; remove passes the record's id |
| ItemsList.RowRuleAgreesWithScrollList | components/crud/ItemsList.jsx:310 | The table and the scroll list agree on which records are being edited |
| ItemsList.ListText | components/crud/ItemsList.jsx:14-30 | Password shows '********', checkbox 'Sim' or 'Não', select the record's name, an empty list '', and unknown types the value |
| ItemsList.ListTextMatchesFieldText | components/crud/ItemsList.jsx:14-30 | The table text equals the form field text for every type except select and password |
| ItemsList.ListRadioShowsOption | components/crud/ItemsList.jsx:16-17 | A radio cell at index `n` shows `options[n]` |
| BaseForm.InitialError | components/form/BaseForm.jsx:19-24 | With no `error` prop the map has one `{}` entry per validation key; otherwise it is the prop |
| BaseForm.InitialErrorIsClean | components/form/BaseForm.jsx:19-24 | The default initial map is clean and has the same keys as the validator's error map |
| BaseForm.ReceiveProps | components/form/BaseForm.jsx:31-35 | A defined `error` prop replaces the map; an undefined one keeps the state |
| BaseForm.ReceiveLastDefinedWins | components/form/BaseForm.jsx:31-35 | After two prop updates the map is the later defined `error` prop |
| BaseForm.OnConfirm | components/form/BaseForm.jsx:38-48 | The item is committed unchanged exactly when every field's rule chain passes; the map reported to `handleError` and stored as `state.error` is the validator's error map, holding for each schema key that key's rule-chain message |
| BaseForm.CommitIffClean | components/form/BaseForm.jsx:38-48 | The item is committed exactly when the reported map holds no message, and one failing field blocks the commit |
| BaseForm.ConfirmIgnoresState | components/form/BaseForm.jsx:38-54 | Confirming does not depend on the current error state, so confirming twice gives the same result |
| BaseForm.HandleEnter | components/form/BaseForm.jsx:50-54 | Only character code 13 confirms, and any other key leaves the state as it is |
| FormWrapper.Initial | components/form/FormWrapper.jsx:14 | The draft starts as a value copy of `props.item` |
| FormWrapper.OnChange | components/form/FormWrapper.jsx:29-33 | The key gets the value, every other field keeps its value, and no other field is added |
| FormWrapper.ChangeTwiceKeepsLast | components/form/FormWrapper.jsx:30 | Of two changes to one key only the second remains |
| FormWrapper.ChangesCommute | components/form/FormWrapper.jsx:30 | Changes to different keys commute |
| FormWrapper.ChangeToSameValue | components/form/FormWrapper.jsx:30 | Writing back a field's own value leaves the draft unchanged |
| FormWrapper.ReceiveProps | components/form/FormWrapper.jsx:22-26 | A truthy `item` prop replaces the draft, and a falsy one keeps it |
| FormWrapper.ReceiveDiscardsChanges | components/form/FormWrapper.jsx:22-33 | A truthy `item` prop discards any pending change |
| MaskedInput.Count | components/form/MaskedInput.jsx:17-18 | The occurrence count is at most the length, and 0 for an absent character |
| MaskedInput.CountConcat | components/form/MaskedInput.jsx:17-18 | The occurrence count of a concatenation is the sum of the counts of its parts |
| MaskedInput.MaxInputSize | components/form/MaskedInput.jsx:17 | The number of mandatory slots is at most the mask length |
| MaskedInput.OptionalInputSize | components/form/MaskedInput.jsx:18 | The number of optional slots is at most the mask length |
| MaskedInput.ApplyMask | components/form/MaskedInput.jsx:72-96 | The two-cursor loop produces the left-to-right reading of the mask, no longer than the mask and no shorter than the mask without its '?' |
| MaskedInput.Render | components/form/MaskedInput.jsx:77-91 | The masked text is never longer than the mask |
| MaskedInput.RenderLength | components/form/MaskedInput.jsx:76-93 | Only '?' can emit nothing. When optional slots take no input, the text is the mask's length minus its '?' count |
| MaskedInput.RenderStep | components/form/MaskedInput.jsx:77-91 | One step of the walk emits the next input character or ' ' at 'x', input or nothing at '?', and the literal elsewhere |
| MaskedInput.Squeeze | components/form/MaskedInput.jsx:84-88 | The mask without its optional slots is as long as the mask minus its '?' count |
| MaskedInput.OffModeShape | components/form/MaskedInput.jsx:77-91 | With input no longer than the 'x' count, position `k` of the output shows the n-th input character at the n-th 'x' (' ' past the input) and the literal elsewhere |
| MaskedInput.OnModeShape | components/form/MaskedInput.jsx:77-91 | With longer input that fills every slot, the output has the mask's length and slot `n` shows the n-th input character in order |
| MaskedInput.Trim | components/form/MaskedInput.jsx:37 | The trimmed key is no longer than the key and neither starts nor ends with white space |
| MaskedInput.ToNumber | components/form/MaskedInput.jsx:37 | Blank text reads as 0 and a run of digits as its value |
| MaskedInput.ReadsAsNumber | components/form/MaskedInput.jsx:37 | The key test `(+e.key) >= 0 \|\| (+e.key) <= 9` holds exactly when the key converts to a number, so it rejects only `NaN` |
| MaskedInput.ReadsAsNumberIffNumber | components/form/MaskedInput.jsx:37 | `(+key) >= 0 \|\| (+key) <= 9` holds exactly when the key is a number, and for every digit key |
| MaskedInput.KeyDown | components/form/MaskedInput.jsx:27-49 | A held modifier is ignored, and the key is refused exactly when it is neither Backspace nor numeric |
| MaskedInput.BackspaceDropsLast | components/form/MaskedInput.jsx:34-36 | Backspace removes exactly the last character, and '' stays '' |
| MaskedInput.NumericKeyKeepsBound | components/form/MaskedInput.jsx:37-43 | A numeric key is appended exactly while there is room. A one-character key never takes the input past `maxInputSize + optionalInputSize` |
| MaskedInput.WideSpaceKeyAppends | components/form/MaskedInput.jsx:37-41 | A key made of one space separator such as U+3000 converts to 0, so with room left it is appended to the input like a digit |
| MaskedInput.NonNumericKeysPrevented | components/form/MaskedInput.jsx:44-46 | A key whose first character lies between 'A' and 'z' (the ASCII letters, the named keys, and `[`, `\`, `]`, `^`, `_` and the backtick), other than Backspace, is refused |
| MaskedInput.TrimKeepsLetterHead | components/form/MaskedInput.jsx:37 | A key whose first character lies between 'A' and 'z' does not read as a number |
| MaskedInput.TrimSuffixOnly | components/form/MaskedInput.jsx:37 | Trimming text that does not start with white space keeps its first character |
| MaskedInput.Displayed | components/form/MaskedInput.jsx:99-105 | The box shows nothing for an undefined or empty input, and otherwise the masked text, whose length is fixed while the input fits the mandatory slots |

## Left out

- All rendering (JSX, antd widgets, CSS, table columns, the Popconfirm and Modal visibility): presentation only.
- moment date and time parsing and formatting in Field.jsx: an external library.
- `setCaretPosition`, `console.log` and the DOM event object in MaskedInput: DOM side effects. A key event is its `key` text and its four modifier flags.
- `Math.random` in `insertModalItem`: the fresh id is a parameter.
- `setState` asynchrony and the Promises that `saveModalItems` and `cancelModalItems` return: each handler is one synchronous state step.
- The owner callbacks `onConfirm`, `handleError`, `onItemUpdate`, `onUpdate`, `onCancel`, `onEdit`, `onRemove`, `onUpdateAll` and `props.onChange`: code that is not shown. The model records the arguments they receive.
- `handleEditClick`, `toggleModal`, `onEditConfirm` and `onEditCancel` in ItemsList.jsx: they toggle the edit modal's visibility and forward the selected record to the owner's `onEdit`, `onUpdate` and `onCancel` in the same shapes as ScrollList.OnEdit, ScrollList.OnUpdate and ScrollList.OnCancel.
- The constructor and `componentWillReceiveProps` of MaskedInput: they only copy `props.value` into state. The raw input is an `Option<string>` parameter.
- JavaScript `null`, `NaN`, fractions, floating point, symbols and prototype-inherited properties such as `toString`: the value type has none of them.
- Numbers beyond 2^53 and the exponent notation of `String(n)`: the model's integers are unbounded. `Int(9007199254740992)` and `Int(9007199254740993)` differ here, though they are one double in JavaScript. JsValues.Decimal prints 10^21 in full, where `String(n)` gives `1e+21`. Equality, `ToJsString` and every lookup keyed by it are therefore exact only for integers of magnitude below 2^53. Such lookups are Drafts.DraftOf, JsValues.IndexById and the `name;id` option codec of FormField. The same bound applies to the `page * limit` product of the RECEIVE guard.
- Object identity: `===` on objects and arrays is structural equality here, so `equalTo` and `unique` on object values are exact only for objects that are never shared.
- CollectionReducer.Reduce: the `Set` merge of RECEIVE and INSERT is modelled as concatenation. The source also collapses two equal primitives, or two references to one object, already present in `state.items`. The model keeps such repeats, so it agrees with the source only when `state.items` has none.
- Spreading a string or an array into an object: every spread in the model is of an object or of a primitive, which spreads to nothing.
- Calls that throw in JavaScript are excluded by preconditions in these cases: reading a property of `undefined` items, siblings or select values; `items.find` on an undefined sibling list; and `saveModalItems` without a draft for `modal.id` with a non-array collection, or with a collection holding `undefined`.
- Reading `id` of an `undefined` list element or record is not excluded: JavaScript throws there, while the model reads the id as `undefined` and carries on. This applies to modules/reducers/base.js:31, 40 and 62, components/crud/ScrollList.jsx:20, components/crud/ItemsList.jsx:310, 368, 423, 432, 450 and 463, and components/form/Field.jsx:159. It concerns JsValues.WithoutId, JsValues.ReplaceId, JsValues.ReplaceByIndex, JsValues.FindById, CollectionReducer.Reduce (REMOVE, UPDATE, UPDATE_ALL), ScrollList.OnUpdate, ItemsList.RemoveModalItem, ItemsList.UpdateModalItem, ItemsList.UpdateAllModalItems, ItemsList.RowEditable, ItemsList.Actions, ItemsList.SourceCollection and FormField.WithoutIdText. For lists and records without `undefined` the results are exact.
- Text is a sequence of Unicode scalar values, whereas JavaScript strings are sequences of UTF-16 code units. A character outside the Basic Multilingual Plane therefore counts as one here and as two in JavaScript. This affects `Prop(Str(s), "length")` and index keys, Validation.IsBlank, the lengths and slot positions of MaskedInput, and backspace after such a character, which removes a whole character here but only its low surrogate in JavaScript.
- ItemsList.SaveModalItems: `modal.props` must be an object. JavaScript also accepts a string or number there, and, when the chosen collection is empty, `undefined` too, because `find` then never reads `item.id` and `{...undefined}` is `{}`.
- MergeEntryMatches: holds only when the id is defined or every element is truthy. For a collection such as `[0]` and an entry without an id, JavaScript appends beside the `0` (ItemsList.FalsyElementAppends), and the `0` then also carries the id.
- MergeEntryIsFound: holds only when the id is defined or every element is truthy. In the `[0]` case, looking up the missing id after the merge finds the `0`, not the entry.
- MergeEntryIdempotent: holds only when the id is defined or every element is truthy. In the `[0]` case, each further save appends the entry again.
- MaskedInput.ToNumber: models decimal integers with an optional sign, surrounded by the white space `Number()` trims. Decimal points, exponents, hexadecimal and `Infinity` are not modelled. A browser key value is one character or a named key such as `Enter` or `F1`, and for those the omission does not change whether the key reads as a number. For a made-up multi-character key such as `1e5` or `0x1`, the model reads `NaN` where JavaScript reads a number.
- MaskedInput.OnModeShape: states the position-by-position output only for an input long enough to fill every slot. For a shorter input longer than the 'x' count, only the length bounds of MaskedInput.RenderLength are proved.
- MaskedInput.ApplyMask: takes the slot count as a parameter, as the component computes it once from the mask it was constructed with. A later change of the `mask` prop is not tracked.
- Validation: the validator is a pure function of its arguments, so "never modifies its inputs" holds by construction and has no lemma.

## Findings

| source | as written | input that shows it | evidently intended | confidence | as-written member | corrected member |
|---|---|---|---|---|---|---|
| components/crud/ItemsList.jsx:446 | `updatedItems[items.id] = item` keys every payload record by the id of the payload ARRAY, which is `undefined`, so the index is `{undefined: lastRecord}` | workspace `[{id:'a'}]`, payload `[{id:'a', name:'z'}]`: the workspace stays `[{id:'a'}]` | `updatedItems[item.id] = item`, so each matching element becomes the last payload record with its id | high, not executed | ItemsList.UpdateAllModalItemsAsWritten | ItemsList.UpdateAllModalItems |
| components/form/Field.jsx:158 | `e.concat([found])` appends to the option STRING `e`, so the field receives a string such as "a;1[object Object]" | empty value, items `[{name:'a', id:1}]`, option "a;1": the field becomes the string "a;1[object Object]" | `value.concat([found])`, appending the chosen record to the list | high, not executed | FormField.SelectMultipleOnSelectAsWritten | FormField.SelectMultipleOnSelect |

=== FILE: base_form.dfy ===
/**
  The confirm step of components/form/BaseForm.jsx.

  The form keeps one piece of state, the error map shown next to its fields.
  It starts as `{}` for every validation key unless the owner passes an
  `error` prop; a later defined `error` prop replaces it. Confirming runs the
  validator on the current item, commits the item through `onConfirm` only
  when it is valid, and always reports and stores the validator's error map.
  Pressing Enter (character code 13) confirms.
*/
module BaseForm {
  import opened JsValues
  import opened Validation

  /** The form's state: `{error}`. */
  datatype FormState = FormState(error: Value)

  /**
    The constructor's error map: `props.error` when it is defined, else
    `Object.keys(validation).reduce((acc, el) => ({...acc, [el]: {}}), {})`.
  */
  function InitialError(validation: Value, propsError: Value): (r: FormState)
    requires validation.Obj?
    ensures propsError != Undef ==> r.error == propsError
    ensures propsError == Undef ==>
              && r.error.Obj? && r.error.fields.Keys == validation.fields.Keys
              && forall k :: k in r.error.fields ==> r.error.fields[k] == Passed
  {
    if propsError == Undef then FormState(Obj(map k | k in validation.fields :: Passed))
    else FormState(propsError)
  }

  /**
    Without an `error` prop the form starts clean, keyed exactly like the
    error map the validator will produce for that schema.
  */
  lemma InitialErrorIsClean(item: Value, validation: Value, items: Option<seq<Value>>)
    requires item != Undef && SchemaOk(validation, items.Some?) && SiblingsOk(items)
    ensures var e := InitialError(validation, Undef).error;
            && Clean(e)
            && e.fields.Keys == Validate(item, validation, items).error.Keys
  {
  }

  /** `componentWillReceiveProps(next)`: a defined `next.error` replaces the map. */
  function ReceiveProps(s: FormState, nextError: Value): (r: FormState)
    ensures nextError != Undef ==> r.error == nextError
    ensures nextError == Undef ==> r == s
  {
    if nextError != Undef then FormState(nextError) else s
  }

  /**
    Receiving props twice is receiving the later defined error: the map
    reflects the last defined `error` prop.
  */
  lemma ReceiveLastDefinedWins(s: FormState, e1: Value, e2: Value)
    ensures ReceiveProps(ReceiveProps(s, e1), e2) == if e2 != Undef then FormState(e2) else ReceiveProps(s, e1)
  {
  }

  /**
    What `onConfirm()` does: the item handed to `props.onConfirm` (if any), the
    error map handed to `props.handleError`, and the next state.
  */
  datatype Confirmation = Confirmation(committed: Option<Value>, reported: Value, next: FormState)

  /** `onConfirm()` for the current item, schema and sibling list. */
  function OnConfirm(item: Value, validation: Value, items: Option<seq<Value>>): (r: Confirmation)
    requires item != Undef && SchemaOk(validation, items.Some?) && SiblingsOk(items)
    ensures r.committed.Some? ==> r.committed.value == item
    ensures r.committed.Some? <==>
              forall k :: k in validation.fields ==> CheckField(item, k, validation.fields[k], items).passed
    ensures r.reported == r.next.error
    ensures r.reported.Obj? && r.reported.fields.Keys == validation.fields.Keys
    ensures forall k :: k in validation.fields ==>
              r.reported.fields[k] == CheckField(item, k, validation.fields[k], items).error
    ensures r.reported == Obj(Validate(item, validation, items).error)
  {
    var v := Validate(item, validation, items);
    Confirmation(if v.valid then Some(item) else None, Obj(v.error), FormState(Obj(v.error)))
  }

  /**
    The item is committed exactly when the reported error map holds no message
    anywhere, nested maps included; a single failing field blocks the commit.
  */
  lemma CommitIffClean(item: Value, validation: Value, items: Option<seq<Value>>)
    requires item != Undef && SchemaOk(validation, items.Some?) && SiblingsOk(items)
    ensures var c := OnConfirm(item, validation, items);
            c.committed.Some? <==> Clean(c.reported)
    ensures forall k :: k in validation.fields && !CheckField(item, k, validation.fields[k], items).passed ==>
              OnConfirm(item, validation, items).committed.None?
  {
    ValidIffClean(item, validation, items);
  }

  /**
    Confirming twice without a change commits or refuses alike and stores the
    same map: the step depends on the item, schema and siblings only, not on
    the current error state.
  */
  lemma ConfirmIgnoresState(item: Value, validation: Value, items: Option<seq<Value>>, s: FormState)
    requires item != Undef && SchemaOk(validation, items.Some?) && SiblingsOk(items)
    ensures var c := OnConfirm(item, validation, items);
            && HandleEnter(13, s, item, validation, items).next == c.next
            && HandleEnter(13, c.next, item, validation, items) == HandleEnter(13, s, item, validation, items)
  {
  }

  /** A key press: `Some` confirmation for Enter, nothing for any other key. */
  datatype KeyPress = KeyPress(confirmation: Option<Confirmation>, next: FormState)

  /** `handleEnter(e)`: only character code 13 triggers `onConfirm()`. */
  function HandleEnter(charCode: int, s: FormState, item: Value, validation: Value, items: Option<seq<Value>>): (r: KeyPress)
    requires item != Undef && SchemaOk(validation, items.Some?) && SiblingsOk(items)
    ensures r.confirmation.Some? <==> charCode == 13
    ensures r.confirmation.None? ==> r.next == s
    ensures r.confirmation.Some? ==> r.next == r.confirmation.value.next && r.next.error == r.confirmation.value.reported
  {
    if charCode == 13 then
      var c := OnConfirm(item, validation, items);
      KeyPress(Some(c), c.next)
    else KeyPress(None, s)
  }
}

=== FILE: drafts.dfy ===
/**
  The draft buffer `updatedItems` shared by the list components.

  It is a plain JavaScript object from record id to the pending copy of that
  record, so an id is looked up through its property-key (string) form. A
  record is being edited exactly when its lookup is not `undefined`.
*/
module Drafts {
  import opened JsValues

  /** `updatedItems`: pending record copies keyed by the string form of their id. */
  type DraftMap = map<string, Value>

  /** `updatedItems[id]`. */
  function DraftOf(drafts: DraftMap, id: Value): (r: Value)
    ensures ToJsString(id) in drafts ==> r == drafts[ToJsString(id)]
    ensures ToJsString(id) !in drafts ==> r == Undef
    ensures DraftsSpreadable(drafts) ==> Spreadable(r)
  {
    Get(drafts, ToJsString(id))
  }

  /** `updatedItems[id] !== undefined`: the record with this id is being edited. */
  predicate IsEditing(drafts: DraftMap, id: Value) {
    DraftOf(drafts, id) != Undef
  }

  /** Every draft can be spread into an object. */
  predicate DraftsSpreadable(drafts: DraftMap) {
    forall k | k in drafts :: Spreadable(drafts[k])
  }
}

=== FILE: field.dfy ===
/**
  Display text and select-option handling of components/form/Field.jsx.

  `getText` turns a field value into the text shown when the field is not being
  edited. Select controls encode each option as the string `${name};${id}` and
  recover the id with `split(';')[1]`; `onSelect` and `onDeselect` map the
  chosen option back to records of the reference list.
*/
module FormField {
  import opened JsValues

  const Yes := "Sim"
  const No := "Não"

  /**
    The `select-multiple` text: `value.reduce((acc, item) => acc === '' ?
    `${item.name}` : `${acc}, ${item.name}`, acc)`.
  */
  function JoinNamesFrom(items: seq<Value>, acc: string): (r: string)
    requires forall i :: 0 <= i < |items| ==> items[i] != Undef
    ensures items == [] ==> r == acc
    ensures acc <= r
  {
    if items == [] then acc
    else
      var name := ToJsString(Named(items[0], "name"));
      JoinNamesFrom(items[1..], if acc == "" then name else acc + ", " + name)
  }

  function JoinNames(items: seq<Value>): (r: string)
    requires forall i :: 0 <= i < |items| ==> items[i] != Undef
    ensures items == [] ==> r == ""
    ensures items != [] ==> ToJsString(Named(items[0], "name")) <= r
    ensures |items| == 1 ==> r == ToJsString(Named(items[0], "name"))
  {
    JoinNamesFrom(items, "")
  }

  /** The name texts of a list of records. */
  function Names(items: seq<Value>): (r: seq<string>)
    ensures |r| == |items|
    ensures forall i :: 0 <= i < |items| ==> r[i] == ToJsString(Named(items[i], "name"))
  {
    seq(|items|, i requires 0 <= i < |items| => ToJsString(Named(items[i], "name")))
  }

  lemma {:induction false} JoinNamesFromNonEmpty(items: seq<Value>, acc: string)
    requires forall i :: 0 <= i < |items| ==> items[i] != Undef
    requires acc != ""
    ensures JoinNamesFrom(items, acc) == if items == [] then acc else acc + ", " + JoinWith(Names(items), ", ")
  {
    if items != [] {
      var name := ToJsString(Named(items[0], "name"));
      var ns := Names(items);
      assert JoinNamesFrom(items, acc) == JoinNamesFrom(items[1..], acc + ", " + name);
      JoinNamesFromNonEmpty(items[1..], acc + ", " + name);
      assert Names(items[1..]) == ns[1..];
      JoinStep(acc, ns);
    }
  }

  /** Joining after a non-empty prefix: one more separator, then the join. */
  lemma JoinStep(acc: string, ns: seq<string>)
    requires ns != []
    ensures (if |ns| == 1 then acc + ", " + ns[0] else acc + ", " + ns[0] + ", " + JoinWith(ns[1..], ", "))
            == acc + ", " + JoinWith(ns, ", ")
  {
    if |ns| > 1 {
      var tail := JoinWith(ns[1..], ", ");
      assert JoinWith(ns, ", ") == ns[0] + ", " + tail;
      ConcatAssociative(acc, ", ", ns[0]);
      ConcatAssociative(acc + ", " + ns[0], ", ", tail);
      ConcatAssociative(acc + ", ", ns[0], ", " + tail);
      ConcatAssociative(ns[0], ", ", tail);
    }
  }

  /**
    Unless the first name is empty, the joined text is the names in order
    separated by ", ", and '' for an empty list. A leading empty name is the
    one case where the fold differs: the next name then starts the text.
  */
  lemma JoinNamesIsJoin(items: seq<Value>)
    requires forall i :: 0 <= i < |items| ==> items[i] != Undef
    requires items != [] ==> ToJsString(Named(items[0], "name")) != ""
    ensures JoinNames(items) == JoinWith(Names(items), ", ")
  {
    if items != [] {
      var name := ToJsString(Named(items[0], "name"));
      JoinNamesFromNonEmpty(items[1..], name);
      assert Names(items[1..]) == Names(items)[1..];
    }
  }

  /** A value `getText` can read without a JavaScript exception. */
  predicate TextOk(kind: string, value: Value) {
    kind == "select-multiple" ==> value.Arr? && forall i :: 0 <= i < |value.elems| ==> value.elems[i] != Undef
  }

  /** `getText(type, value, options)` of the form field. */
  function GetText(kind: string, value: Value, options: seq<Value>): (r: Value)
    requires TextOk(kind, value)
    ensures kind == "checkbox" ==> r == Str(if Truthy(value) then Yes else No)
    ensures kind !in {"radio", "select-multiple", "checkbox"} ==> r == value
    ensures kind == "select-multiple" && value.elems == [] ==> r == Str("")
  {
    match kind
    case "radio" => Prop(Arr(options), ToJsString(value))
    case "select" => value
    case "select-multiple" => Str(JoinNames(value.elems))
    case "checkbox" => Str(if Truthy(value) then Yes else No)
    case _ => value
  }

  /** Decimal texts of naturals are distinct. */
  lemma {:induction false} DigitsInjective(a: nat, b: nat)
    requires Digits(a) == Digits(b)
    ensures a == b
  {
    var da, db := Digits(a), Digits(b);
    if a < 10 && b < 10 {
      DigitCharInjective(a, b);
    } else if a >= 10 && b >= 10 {
      assert da == Digits(a / 10) + [DigitChar(a % 10)];
      assert db == Digits(b / 10) + [DigitChar(b % 10)];
      assert da[..|da| - 1] == Digits(a / 10) && db[..|db| - 1] == Digits(b / 10);
      DigitsInjective(a / 10, b / 10);
      DigitCharInjective(a % 10, b % 10);
    }
  }

  lemma DigitCharInjective(x: nat, y: nat)
    requires x < 10 && y < 10 && DigitChar(x) == DigitChar(y)
    ensures x == y
  {
  }

  /** A radio field shows the option at the selected index. */
  lemma RadioShowsOption(n: int, options: seq<Value>)
    requires 0 <= n < |options|
    ensures GetText("radio", Int(n), options) == options[n]
  {
    var k := ToJsString(Int(n));
    var found := IndexKey(k, |options|, 0);
    assert Decimal(n) == k && k == Digits(n);
    assert k != "length" by {
      assert '0' <= k[0] <= '9';
    }
    if found.Some? {
      DigitsInjective(found.value, n);
    }
  }

  /** `${item.name};${item.id}`, the value of a select option. */
  function EncodeOption(item: Value): (r: string)
    requires item != Undef
    ensures ';' in r
  {
    ToJsString(Named(item, "name")) + ";" + ToJsString(Named(item, "id"))
  }

  /** `s.split(sep)`. */
  function Split(s: string, sep: char): (r: seq<string>)
    ensures |r| >= 1
    ensures sep !in s ==> r == [s]
  {
    if s == [] then [""]
    else
      var rest := Split(s[1..], sep);
      if s[0] == sep then [""] + rest
      else
        assert sep !in s ==> [s[0]] + s[1..] == s;
        [[s[0]] + rest[0]] + rest[1..]
  }

  lemma {:induction false} SplitAfterPlain(a: string, b: string, sep: char)
    requires sep !in a
    ensures Split(a + [sep] + b, sep) == [a] + Split(b, sep)
  {
    if a == [] {
      assert a + [sep] + b == [sep] + b;
      assert ([sep] + b)[1..] == b;
    } else {
      assert (a + [sep] + b)[0] == a[0];
      assert (a + [sep] + b)[1..] == a[1..] + [sep] + b;
      SplitAfterPlain(a[1..], b, sep);
      assert [a[0]] + a[1..] == a;
    }
  }

  /** `e.split(';')[1]`: the text after the first ';' up to the next, else `undefined`. */
  function DecodeOption(e: string): (r: Value)
    ensures r == Undef <==> ';' !in e
  {
    var parts := Split(e, ';');
    if |parts| > 1 then Str(parts[1])
    else
      assert ';' !in e by {
        if ';' in e {
          var i :| 0 <= i < |e| && e[i] == ';';
          SplitHasSeparator(e, i);
        }
      }
      Undef
  }

  lemma {:induction false} SplitHasSeparator(e: string, i: int)
    requires 0 <= i < |e| && e[i] == ';'
    ensures |Split(e, ';')| > 1
  {
    if i > 0 && e[0] != ';' {
      SplitHasSeparator(e[1..], i - 1);
    }
  }

  /**
    Decoding an encoded option recovers the stringified id whenever neither the
    name nor the id text contains ';'.
  */
  lemma OptionRoundTrip(item: Value)
    requires item != Undef
    requires ';' !in ToJsString(Named(item, "name")) && ';' !in ToJsString(Named(item, "id"))
    ensures DecodeOption(EncodeOption(item)) == Str(ToJsString(Named(item, "id")))
  {
    var name := ToJsString(Named(item, "name"));
    var id := ToJsString(Named(item, "id"));
    assert EncodeOption(item) == name + [';'] + id;
    SplitAfterPlain(name, id, ';');
  }

  /** The stringified id `${el.id}` as a value. */
  function IdText(el: Value): Value {
    Str(ToJsString(Named(el, "id")))
  }

  /** `items.find(el => `${el.id}` === decoded)`, else `undefined`. */
  function FindByIdText(items: seq<Value>, decoded: Value): (r: Value)
    requires forall i :: 0 <= i < |items| ==> items[i] != Undef
    ensures r != Undef ==> exists i :: 0 <= i < |items| && items[i] == r && IdText(items[i]) == decoded &&
                             forall j :: 0 <= j < i ==> IdText(items[j]) != decoded
    ensures (exists i :: 0 <= i < |items| && IdText(items[i]) == decoded) ==> r != Undef
  {
    if items == [] then Undef
    else if IdText(items[0]) == decoded then items[0]
    else
      var r := FindByIdText(items[1..], decoded);
      if r != Undef then
        ghost var i :| 0 <= i < |items| - 1 && items[1..][i] == r && IdText(items[1..][i]) == decoded &&
                        forall j :: 0 <= j < i ==> IdText(items[1..][j]) != decoded;
        assert items[i + 1] == r;
        r
      else
        assert forall i :: 1 <= i < |items| ==> items[i] == items[1..][i - 1];
        r
  }

  /** `select` `onSelect(e)`: the record chosen from the reference list. */
  function SelectOnSelect(items: seq<Value>, e: string): (r: Value)
    requires forall i :: 0 <= i < |items| ==> items[i] != Undef
    ensures r != Undef ==> r in items && IdText(r) == DecodeOption(e)
    ensures r == Undef <==> forall i :: 0 <= i < |items| ==> IdText(items[i]) != DecodeOption(e)
  {
    FindByIdText(items, DecodeOption(e))
  }

  /**
    Choosing the option rendered for `items[i]` picks the first record whose
    stringified id equals that of `items[i]`, hence `items[i]` itself when the
    stringified ids are distinct.
  */
  lemma SelectPicksEncodedItem(items: seq<Value>, i: int)
    requires 0 <= i < |items| && forall j :: 0 <= j < |items| ==> items[j] != Undef
    requires ';' !in ToJsString(Named(items[i], "name")) && ';' !in ToJsString(Named(items[i], "id"))
    ensures var r := SelectOnSelect(items, EncodeOption(items[i]));
            exists j :: 0 <= j <= i && items[j] == r && IdText(items[j]) == IdText(items[i]) &&
              forall m :: 0 <= m < j ==> IdText(items[m]) != IdText(items[i])
    ensures (forall j :: 0 <= j < |items| && j != i ==> IdText(items[j]) != IdText(items[i])) ==>
              SelectOnSelect(items, EncodeOption(items[i])) == items[i]
  {
    OptionRoundTrip(items[i]);
    var r := SelectOnSelect(items, EncodeOption(items[i]));
    assert r != Undef;
    var j :| 0 <= j < |items| && items[j] == r && IdText(items[j]) == IdText(items[i]) &&
      forall m :: 0 <= m < j ==> IdText(items[m]) != IdText(items[i]);
    assert j <= i;
  }

  /** `value.filter(el => `${el.id}` !== decoded)`. */
  function WithoutIdText(value: seq<Value>, decoded: Value): (r: seq<Value>)
    ensures |r| <= |value|
    ensures forall x :: x in r <==> x in value && IdText(x) != decoded
  {
    if value == [] then []
    else if IdText(value[0]) != decoded then [value[0]] + WithoutIdText(value[1..], decoded)
    else WithoutIdText(value[1..], decoded)
  }

  /** `select-multiple` `onDeselect(e)`: the new list value. */
  function SelectMultipleOnDeselect(value: seq<Value>, e: string): (r: seq<Value>)
    ensures |r| <= |value|
    ensures forall x :: x in r <==> x in value && IdText(x) != DecodeOption(e)
  {
    WithoutIdText(value, DecodeOption(e))
  }

  /**
    Deselecting the option of `item` removes every element with the same
    stringified id and keeps every other one.
  */
  lemma DeselectRemovesOption(value: seq<Value>, item: Value)
    requires item != Undef
    requires ';' !in ToJsString(Named(item, "name")) && ';' !in ToJsString(Named(item, "id"))
    ensures var r := SelectMultipleOnDeselect(value, EncodeOption(item));
            forall x :: x in r <==> x in value && IdText(x) != IdText(item)
  {
    OptionRoundTrip(item);
  }

  /**
    `select-multiple` `onSelect(e)` as written: `e.concat([found])` appends to
    the option STRING `e`, so the field receives a string, never a list.
  */
  function SelectMultipleOnSelectAsWritten(value: seq<Value>, items: seq<Value>, e: string): (r: Value)
    requires forall i :: 0 <= i < |items| ==> items[i] != Undef
    ensures r.Str? && |r.s| >= |e| && r.s[..|e|] == e
  {
    Str(e + ToJsString(Arr([SelectOnSelect(items, e)])))
  }

  /** The intended `value.concat([found])`. */
  function SelectMultipleOnSelect(value: seq<Value>, items: seq<Value>, e: string): (r: Value)
    requires forall i :: 0 <= i < |items| ==> items[i] != Undef
    ensures r.Arr? && |r.elems| == |value| + 1 && r.elems[..|value|] == value
    ensures r.elems[|value|] == SelectOnSelect(items, e)
  {
    Arr(value + [SelectOnSelect(items, e)])
  }

  /** The as-written handler turns the field into a string for every option. */
  lemma SelectMultipleAsWrittenLosesList(value: seq<Value>, items: seq<Value>, e: string)
    requires forall i :: 0 <= i < |items| ==> items[i] != Undef
    ensures SelectMultipleOnSelectAsWritten(value, items, e).Str?
    ensures SelectMultipleOnSelectAsWritten(value, items, e) != SelectMultipleOnSelect(value, items, e)
  {
  }

  /** A one-element array of an object prints as that object. */
  lemma SingletonObjectText(x: Value)
    requires x.Obj?
    ensures ToJsString(Arr([x])) == "[object Object]"
  {
    var strs := seq(1, i requires 0 <= i < 1 => if [x][i].Undef? then "" else ToJsString([x][i]));
    assert strs == ["[object Object]"];
  }

  /** Picking option "a;1" from `[{name:'a', id:1}]` finds that record. */
  lemma PickFirstOption(a: Value)
    requires a == Obj(map["name" := Str("a"), "id" := Int(1)])
    ensures SelectOnSelect([a], "a;1") == a
  {
    assert Named(a, "id") == Int(1) && Named(a, "name") == Str("a");
    assert Digits(1) == "1";
    assert ToJsString(Int(1)) == "1";
    assert EncodeOption(a) == "a;1";
    OptionRoundTrip(a);
    assert IdText(a) == Str("1");
  }

  /**
    The concrete case: selecting "a;1" from the reference list `[{name:'a', id:1}]`
    on an empty field yields the string "a;1[object Object]" instead of the
    list `[{name:'a', id:1}]`.
  */
  lemma SelectMultipleAsWrittenExample(a: Value)
    requires a == Obj(map["name" := Str("a"), "id" := Int(1)])
    ensures SelectMultipleOnSelectAsWritten([], [a], "a;1") == Str("a;1[object Object]")
    ensures SelectMultipleOnSelect([], [a], "a;1") == Arr([a])
  {
    var found := SelectOnSelect([a], "a;1");
    PickFirstOption(a);
    SingletonObjectText(found);
    assert SelectMultipleOnSelectAsWritten([], [a], "a;1") == Str("a;1" + "[object Object]");
    assert "a;1" + "[object Object]" == "a;1[object Object]";
  }
}

=== FILE: form_wrapper.dfy ===
/**
  The draft holder of components/form/FormWrapper.jsx.

  The wrapper keeps a private copy of the record being edited. Every field
  change replaces one key of the copy; a new, truthy `item` prop replaces the
  whole copy. Deep copies are value copies here, as `Value` is immutable.
*/
module FormWrapper {
  import opened JsValues

  /** The constructor: the draft is a copy of `props.item`. */
  function Initial(item: Value): (r: Value)
    ensures r == item
  {
    item
  }

  /**
    `onChange(key, value)`: `{...item, [key]: value}`. The key gets the value,
    every other field keeps its value, and no field is added but the key.
  */
  function OnChange(draft: Value, key: string, value: Value): (r: Value)
    requires Spreadable(draft)
    ensures r.Obj?
    ensures r.fields.Keys == Spread(draft).Keys + {key}
    ensures r.fields[key] == value
    ensures forall f :: f in Spread(draft) && f != key ==> r.fields[f] == Spread(draft)[f]
  {
    Obj(Spread(draft)[key := value])
  }

  /** Of two changes to the same key only the second value remains. */
  lemma ChangeTwiceKeepsLast(draft: Value, key: string, v1: Value, v2: Value)
    requires Spreadable(draft)
    ensures OnChange(OnChange(draft, key, v1), key, v2) == OnChange(draft, key, v2)
  {
    assert OnChange(OnChange(draft, key, v1), key, v2).fields == OnChange(draft, key, v2).fields;
  }

  /** Changes to different keys commute. */
  lemma ChangesCommute(draft: Value, k1: string, v1: Value, k2: string, v2: Value)
    requires Spreadable(draft) && k1 != k2
    ensures OnChange(OnChange(draft, k1, v1), k2, v2) == OnChange(OnChange(draft, k2, v2), k1, v1)
  {
    var m := Spread(draft);
    assert OnChange(OnChange(draft, k1, v1), k2, v2) == Obj(m[k1 := v1][k2 := v2]);
    assert OnChange(OnChange(draft, k2, v2), k1, v1) == Obj(m[k2 := v2][k1 := v1]);
    assert m[k1 := v1][k2 := v2] == m[k2 := v2][k1 := v1];
  }

  /** Writing back the value a field already has leaves an object draft as it was. */
  lemma ChangeToSameValue(draft: Value, key: string)
    requires draft.Obj? && key in draft.fields
    ensures OnChange(draft, key, draft.fields[key]) == draft
  {
    assert OnChange(draft, key, draft.fields[key]).fields == draft.fields;
  }

  /** `componentWillReceiveProps(next)`: a truthy `next.item` replaces the draft. */
  function ReceiveProps(draft: Value, next: Value): (r: Value)
    ensures Truthy(next) ==> r == Initial(next)
    ensures !Truthy(next) ==> r == draft
  {
    if Truthy(next) then Initial(next) else draft
  }

  /**
    A truthy item prop discards pending changes: the draft after any change
    followed by that prop is the same as a freshly constructed wrapper's.
  */
  lemma ReceiveDiscardsChanges(draft: Value, key: string, value: Value, next: Value)
    requires Spreadable(draft) && Truthy(next)
    ensures ReceiveProps(OnChange(draft, key, value), next) == Initial(next)
    ensures ReceiveProps(draft, next) == ReceiveProps(OnChange(draft, key, value), next)
  {
  }
}

=== FILE: items_list.dfy ===
/**
  The table of components/crud/ItemsList.jsx: the nested-collection workspace
  behind its modal, the row rule that picks between a draft and the committed
  record, and the in-table display text.

  The modal edits one array field (`collectionKey`) of one parent record
  (`modal.id`). Its workspace `items` holds the nested records being edited;
  saving writes `{...modal.props, [modal.key]: items}` into that array field and
  hands the new array to the owner's `onItemUpdate`.
*/
module ItemsList {
  import opened JsValues
  import opened Drafts
  import FormField
  import ScrollList

  /** The component state the modal works on. */
  datatype Workspace = Workspace(showModal: bool, modal: Value, items: seq<Value>)

  /** The state after save or cancel: no modal, empty descriptor, empty workspace. */
  const Closed := Workspace(false, Obj(map[]), [])

  /** `showModal(modal, item)`: open the modal on a descriptor and a workspace. */
  function ShowModal(modal: Value, items: seq<Value>): (r: Workspace)
    ensures r.showModal && r.modal == modal && r.items == items
  {
    Workspace(true, modal, items)
  }

  /** `hideModal()`: close the modal and forget the descriptor, keeping the workspace. */
  function HideModal(ws: Workspace): (r: Workspace)
    ensures !r.showModal && r.modal == Obj(map[]) && r.items == ws.items
  {
    Workspace(false, Obj(map[]), ws.items)
  }

  /**
    The element `insertModalItem(item)` appends:
    `Object.assign({key: id, id, error: cloneDeep(modal.error)}, item)`, so the
    fields of `item` override the three defaults.
  */
  function NewModalItem(modal: Value, item: Value, newId: string): (r: Value)
    requires Spreadable(item)
    ensures r.Obj?
    ensures r.fields.Keys == {"key", "id", "error"} + Spread(item).Keys
    ensures forall f :: f in Spread(item) ==> r.fields[f] == Spread(item)[f]
    ensures "key" !in Spread(item) ==> r.fields["key"] == Str(newId)
    ensures "id" !in Spread(item) ==> r.fields["id"] == Str(newId)
    ensures "error" !in Spread(item) ==> r.fields["error"] == Named(modal, "error")
  {
    Obj(map["key" := Str(newId), "id" := Str(newId), "error" := Named(modal, "error")] + Spread(item))
  }

  /**
    `insertModalItem(item)` with the random id `newId` as a parameter: exactly
    one new element at the end, earlier elements untouched.
  */
  function InsertModalItem(ws: Workspace, item: Value, newId: string): (r: Workspace)
    requires Spreadable(item)
    ensures r.showModal == ws.showModal && r.modal == ws.modal
    ensures |r.items| == |ws.items| + 1 && r.items[..|ws.items|] == ws.items
    ensures r.items[|ws.items|] == NewModalItem(ws.modal, item, newId)
  {
    ws.(items := ws.items + [NewModalItem(ws.modal, item, newId)])
  }

  /** `removeModalItem(id)`: the new state and the handler's result `false`. */
  datatype Removed = Removed(next: Workspace, result: bool)

  /**
    `removeModalItem(id)`: keeps exactly the elements whose id differs from
    `id`, in their order, and answers `false`.
  */
  function RemoveModalItem(ws: Workspace, id: Value): (r: Removed)
    ensures !r.result
    ensures r.next.showModal == ws.showModal && r.next.modal == ws.modal
    ensures forall x :: x in r.next.items <==> x in ws.items && Prop(x, "id") != id
    ensures forall a, b :: ws.items == a + b ==> r.next.items == WithoutId(a, id) + WithoutId(b, id)
  {
    var kept := WithoutId(ws.items, id);
    assert forall a, b :: ws.items == a + b ==> kept == WithoutId(a, id) + WithoutId(b, id) by {
      forall a, b | ws.items == a + b
        ensures kept == WithoutId(a, id) + WithoutId(b, id)
      {
        WithoutIdConcat(a, b, id);
      }
    }
    Removed(ws.(items := kept), false)
  }

  /**
    Inserting a record under a fresh id that no element carries, when the record
    brings no `id` of its own, and then removing that id restores the workspace.
  */
  lemma InsertThenRemove(ws: Workspace, item: Value, newId: string)
    requires Spreadable(item) && "id" !in Spread(item)
    requires forall i :: 0 <= i < |ws.items| ==> Prop(ws.items[i], "id") != Str(newId)
    ensures RemoveModalItem(InsertModalItem(ws, item, newId), Str(newId)).next == ws
  {
    var x := NewModalItem(ws.modal, item, newId);
    assert Prop(x, "id") == Str(newId);
    WithoutIdConcat(ws.items, [x], Str(newId));
    WithoutIdAbsent(ws.items, Str(newId));
    assert WithoutId([x], Str(newId)) == [];
  }

  /**
    `updateModalItem(item)`: same length and order; every element whose id is
    `item.id` becomes `item`, every other one is kept.
  */
  function UpdateModalItem(ws: Workspace, item: Value): (r: Workspace)
    requires item != Undef
    ensures r.showModal == ws.showModal && r.modal == ws.modal
    ensures |r.items| == |ws.items|
    ensures forall i :: 0 <= i < |ws.items| ==>
              r.items[i] == (if Prop(ws.items[i], "id") == Prop(item, "id") then item else ws.items[i])
  {
    ws.(items := ReplaceId(ws.items, Prop(item, "id"), item))
  }

  /** Updating with an element already in the workspace whose id no other element shares changes nothing. */
  lemma UpdateWithSelfIsNoOp(ws: Workspace, i: int)
    requires 0 <= i < |ws.items| && ws.items[i] != Undef
    requires forall j :: 0 <= j < |ws.items| && j != i ==> Prop(ws.items[j], "id") != Prop(ws.items[i], "id")
    ensures UpdateModalItem(ws, ws.items[i]) == ws
  {
    var r := UpdateModalItem(ws, ws.items[i]);
    assert r.items == ws.items;
  }

  /** The records of a payload as values. */
  function Objs(ps: seq<Record>): (r: seq<Value>)
    ensures |r| == |ps| && forall i :: 0 <= i < |ps| ==> r[i] == Obj(ps[i])
  {
    seq(|ps|, i requires 0 <= i < |ps| => Obj(ps[i]))
  }

  /** An array has no `id` property: `"id"` is neither `length` nor an index. */
  lemma ArrayHasNoId(a: seq<Value>)
    ensures Prop(Arr(a), "id") == Undef
  {
    var found := IndexKey("id", |a|, 0);
    if found.Some? {
      DecimalIsNotId(found.value);
      assert false;
    }
  }

  lemma DecimalIsNotId(n: nat)
    ensures Decimal(n) != "id"
  {
    assert '0' <= Decimal(n)[0] <= '9';
  }

  /**
    The index `updatedItems` after the first `n` iterations of the forEach at
    line 445 as written: every payload record is stored under the key
    `String(items.id)`, the id of the payload ARRAY.
  */
  function IndexAsWritten(ps: seq<Record>, n: nat): (r: map<string, Record>)
    requires n <= |ps|
    ensures n == 0 ==> r == map[]
    ensures n > 0 ==> r == map["undefined" := ps[n - 1]]
  {
    if n == 0 then map[]
    else
      ArrayHasNoId(Objs(ps));
      IndexAsWritten(ps, n - 1)[ToJsString(Prop(Arr(Objs(ps)), "id")) := ps[n - 1]]
  }

  /** `updateAllModalItems(items)` as written. */
  function UpdateAllModalItemsAsWritten(ws: Workspace, ps: seq<Record>): (r: Workspace)
    ensures r.showModal == ws.showModal && r.modal == ws.modal && |r.items| == |ws.items|
  {
    ws.(items := ReplaceByIndex(ws.items, IndexAsWritten(ps, |ps|)))
  }

  /**
    As written, the bulk update keeps the length and every element whose id
    does not print as "undefined"; only elements without an id (or whose id is
    the text "undefined") change, and they all become the LAST payload record.
  */
  lemma UpdateAllAsWrittenIgnoresIds(ws: Workspace, ps: seq<Record>, i: int)
    requires 0 <= i < |ws.items|
    ensures var r := UpdateAllModalItemsAsWritten(ws, ps);
            && |r.items| == |ws.items|
            && r.showModal == ws.showModal && r.modal == ws.modal
            && (ps == [] || ToJsString(Prop(ws.items[i], "id")) != "undefined" ==> r.items[i] == ws.items[i])
            && (ps != [] && ToJsString(Prop(ws.items[i], "id")) == "undefined" ==> r.items[i] == Obj(ps[|ps| - 1]))
  {
  }

  /**
    The concrete case: a workspace `[{id:'a'}]` bulk-updated with
    `[{id:'a', name:'z'}]` is left as it was, where the evident intent replaces
    the element.
  */
  lemma UpdateAllAsWrittenExample(x: Record, p: Record)
    requires x == map["id" := Str("a")] && p == map["id" := Str("a"), "name" := Str("z")]
    ensures UpdateAllModalItemsAsWritten(Workspace(true, Obj(map[]), [Obj(x)]), [p]).items == [Obj(x)]
    ensures UpdateAllModalItems(Workspace(true, Obj(map[]), [Obj(x)]), [p]).items == [Obj(p)]
  {
    var ws := Workspace(true, Obj(map[]), [Obj(x)]);
    assert Prop(Obj(x), "id") == Str("a");
    UpdateAllAsWrittenIgnoresIds(ws, [p], 0);
    assert KeyOf(p) == "a";
    assert IndexById([p]) == map["a" := p];
  }

  /** The intended `updatedItems[item.id] = item`: the payload indexed by each record's own id. */
  function UpdateAllModalItems(ws: Workspace, ps: seq<Record>): (r: Workspace)
    ensures r.showModal == ws.showModal && r.modal == ws.modal && |r.items| == |ws.items|
  {
    ws.(items := ReplaceByIndex(ws.items, IndexById(ps)))
  }

  /**
    The intended bulk update keeps length and order; an element whose id no
    payload record carries is unchanged, a matching one becomes the LAST payload
    record with that id (ids compared as property keys).
  */
  lemma UpdateAllReplaces(ws: Workspace, ps: seq<Record>, i: int)
    requires 0 <= i < |ws.items|
    ensures var r := UpdateAllModalItems(ws, ps);
            var k := ToJsString(Prop(ws.items[i], "id"));
            && ((forall p :: p in ps ==> KeyOf(p) != k) ==> r.items[i] == ws.items[i])
            && ((exists p :: p in ps && KeyOf(p) == k) ==>
                  r.items[i].Obj? && IsLastWithKey(ps, k, r.items[i].fields))
  {
    ReplaceByIndexMeaning(ws.items, ps, i);
  }

  /** `onItemUpdate(modal.id, modal.collectionKey, collection)`. */
  datatype ItemUpdate = ItemUpdate(id: Value, key: Value, collection: seq<Value>)

  /** `saveModalItems()`: the call made to the owner and the state that follows. */
  datatype Saved = Saved(update: ItemUpdate, next: Workspace)

  /** The array field `draft[collectionKey]` of the parent record's draft. */
  function DraftCollection(ws: Workspace, drafts: DraftMap): (r: Value)
    requires IsEditing(drafts, Named(ws.modal, "id"))
    ensures DraftOf(drafts, Named(ws.modal, "id")).Obj? ==>
              r == Get(drafts[ToJsString(Named(ws.modal, "id"))].fields, ToJsString(Named(ws.modal, "collectionKey")))
  {
    Prop(DraftOf(drafts, Named(ws.modal, "id")), ToJsString(Named(ws.modal, "collectionKey")))
  }

  /**
    What `saveModalItems` needs to run without a JavaScript exception: a draft
    of the parent record, an object `modal.props`, and, when the draft's field
    is falsy, a committed parent record; the chosen collection is an array with
    no `undefined` element, since its elements' `id` is read.
  */
  predicate SaveOk(ws: Workspace, drafts: DraftMap, committed: seq<Value>) {
    && IsEditing(drafts, Named(ws.modal, "id"))
    && Named(ws.modal, "props").Obj?
    && (!Truthy(DraftCollection(ws, drafts)) ==> FindById(committed, Named(ws.modal, "id")).Some?)
    && var c := SourceCollection(ws, drafts, committed);
       c.Arr? && forall i :: 0 <= i < |c.elems| ==> c.elems[i] != Undef
  }

  /**
    `updatedItems[modal.id][collectionKey] || items.find(el => el.id === modal.id)[collectionKey]`.
  */
  function SourceCollection(ws: Workspace, drafts: DraftMap, committed: seq<Value>): (r: Value)
    requires IsEditing(drafts, Named(ws.modal, "id"))
    ensures Truthy(DraftCollection(ws, drafts)) ==> r == DraftCollection(ws, drafts)
    ensures !Truthy(DraftCollection(ws, drafts)) && FindById(committed, Named(ws.modal, "id")).Some? ==>
              r == Prop(FindById(committed, Named(ws.modal, "id")).value, ToJsString(Named(ws.modal, "collectionKey")))
  {
    var fromDraft := DraftCollection(ws, drafts);
    if Truthy(fromDraft) then fromDraft
    else match FindById(committed, Named(ws.modal, "id"))
      case Some(parent) => Prop(parent, ToJsString(Named(ws.modal, "collectionKey")))
      case None => Undef
  }

  /** `{...modal.props, [modal.key]: items}`: the nested record carrying the workspace. */
  function SavedEntry(ws: Workspace): (r: Value)
    requires Named(ws.modal, "props").Obj?
    ensures r.Obj?
    ensures var key := ToJsString(Named(ws.modal, "key"));
            && r.fields.Keys == Named(ws.modal, "props").fields.Keys + {key}
            && r.fields[key] == Arr(ws.items)
            && forall f :: f in r.fields && f != key ==> r.fields[f] == Named(ws.modal, "props").fields[f]
  {
    Obj(Named(ws.modal, "props").fields[ToJsString(Named(ws.modal, "key")) := Arr(ws.items)])
  }

  /**
    The test `!collection.find(el => el.id === id)`: no element carries the id,
    or the first one that does is falsy.
  */
  predicate AppendsEntry(c: seq<Value>, id: Value) {
    var f := FindById(c, id);
    f.None? || !Truthy(f.value)
  }

  /**
    The array `saveModalItems` builds from the source collection `c`: when the
    lookup by id finds nothing, or finds a falsy element, the entry is appended
    (`c.concat(entry)`); otherwise every element with the id becomes the entry.
  */
  function MergeEntry(c: seq<Value>, id: Value, entry: Value): (r: seq<Value>)
    ensures (forall i :: 0 <= i < |c| ==> Prop(c[i], "id") != id) ==> r == c + [entry]
    ensures AppendsEntry(c, id) ==> r == c + [entry]
    ensures !AppendsEntry(c, id) ==>
              && |r| == |c|
              && forall i :: 0 <= i < |c| ==> r[i] == if Prop(c[i], "id") == id then entry else c[i]
  {
    if AppendsEntry(c, id) then c + [entry] else ReplaceId(c, id, entry)
  }

  /** A falsy value carries no id: `0`, `''`, `false` and `undefined` all read `.id` as `undefined`. */
  lemma FalsyCarriesNoId(v: Value)
    requires !Truthy(v)
    ensures Prop(v, "id") == Undef
  {
    if v.Str? {
      assert v.s == "";
    }
  }

  /**
    The lookup stops at a truthy element, if at all: either the id is defined,
    which no falsy element carries, or every element is truthy.
  */
  predicate LookupSeesTruthy(c: seq<Value>, id: Value) {
    id != Undef || forall i :: 0 <= i < |c| ==> Truthy(c[i])
  }

  /** Where the lookup sees only truthy elements, the merge appends exactly when no element has the id. */
  lemma AppendsOnlyWhenAbsent(c: seq<Value>, id: Value)
    requires LookupSeesTruthy(c, id)
    ensures AppendsEntry(c, id) <==> FindById(c, id).None?
  {
    var f := FindById(c, id);
    if f.Some? {
      var i :| 0 <= i < |c| && c[i] == f.value && Prop(c[i], "id") == id;
      if !Truthy(c[i]) {
        FalsyCarriesNoId(c[i]);
      }
    }
  }

  /**
    The falsy case of the lookup: for the collection `[0]` and an entry without
    an id, the lookup finds `0`, so the entry is appended beside it.
  */
  lemma FalsyElementAppends(entry: Value)
    requires entry.Obj? && "id" !in entry.fields
    ensures MergeEntry([Int(0)], Undef, entry) == [Int(0), entry]
  {
    assert Prop(Int(0), "id") == Undef;
  }

  /** Every element of a merge that carries the id is the merged entry. */
  lemma MergeEntryMatches(c: seq<Value>, id: Value, entry: Value, i: int)
    requires Prop(entry, "id") == id && LookupSeesTruthy(c, id)
    requires 0 <= i < |MergeEntry(c, id, entry)|
    ensures Prop(MergeEntry(c, id, entry)[i], "id") == id <==> MergeEntry(c, id, entry)[i] == entry
  {
    AppendsOnlyWhenAbsent(c, id);
  }

  /**
    After a merge, looking the id up in the new array finds the merged entry
    (when the entry carries that id).
  */
  lemma MergeEntryIsFound(c: seq<Value>, id: Value, entry: Value)
    requires Prop(entry, "id") == id && LookupSeesTruthy(c, id)
    ensures FindById(MergeEntry(c, id, entry), id) == Some(entry)
  {
    var r := MergeEntry(c, id, entry);
    AppendsOnlyWhenAbsent(c, id);
    if FindById(c, id).None? {
      assert Prop(r[|c|], "id") == id;
    } else {
      var k :| 0 <= k < |c| && Prop(c[k], "id") == id;
      assert Prop(r[k], "id") == id;
    }
    var found := FindById(r, id);
    var i :| 0 <= i < |r| && r[i] == found.value && forall j :: 0 <= j < i ==> Prop(r[j], "id") != id;
    MergeEntryMatches(c, id, entry, i);
  }

  /** Merging the same truthy entry again changes nothing: saving is idempotent on the array. */
  lemma MergeEntryIdempotent(c: seq<Value>, id: Value, entry: Value)
    requires Prop(entry, "id") == id && Truthy(entry) && LookupSeesTruthy(c, id)
    ensures MergeEntry(MergeEntry(c, id, entry), id, entry) == MergeEntry(c, id, entry)
  {
    var r := MergeEntry(c, id, entry);
    MergeEntryIsFound(c, id, entry);
    assert !AppendsEntry(r, id);
    var twice := MergeEntry(r, id, entry);
    forall i | 0 <= i < |r|
      ensures twice[i] == r[i]
    {
      MergeEntryMatches(c, id, entry, i);
    }
  }

  /**
    `saveModalItems()`: when the lookup by the id of `modal.props` finds no
    element, or a falsy one, the saved entry is appended; otherwise every
    element with that id becomes the saved entry. The owner receives the parent
    id, the collection key and the new array; the workspace, the descriptor and
    the modal close.
  */
  function SaveModalItems(ws: Workspace, drafts: DraftMap, committed: seq<Value>): (r: Saved)
    requires SaveOk(ws, drafts, committed)
    ensures r.update.id == Named(ws.modal, "id") && r.update.key == Named(ws.modal, "collectionKey")
    ensures r.next == Closed
    ensures var c := SourceCollection(ws, drafts, committed).elems;
            var id := Named(Named(ws.modal, "props"), "id");
            && (AppendsEntry(c, id) ==> r.update.collection == c + [SavedEntry(ws)])
            && (!AppendsEntry(c, id) ==>
                  && |r.update.collection| == |c|
                  && forall i :: 0 <= i < |c| ==>
                       r.update.collection[i] == if Prop(c[i], "id") == id then SavedEntry(ws) else c[i])
    ensures var c := SourceCollection(ws, drafts, committed).elems;
            var id := Named(Named(ws.modal, "props"), "id");
            ToJsString(Named(ws.modal, "key")) != "id" && LookupSeesTruthy(c, id) ==>
              FindById(r.update.collection, id) == Some(SavedEntry(ws))
  {
    var c := SourceCollection(ws, drafts, committed).elems;
    var id := Named(Named(ws.modal, "props"), "id");
    var entry := SavedEntry(ws);
    assert ToJsString(Named(ws.modal, "key")) != "id" && LookupSeesTruthy(c, id) ==>
             FindById(MergeEntry(c, id, entry), id) == Some(entry) by {
      if ToJsString(Named(ws.modal, "key")) != "id" && LookupSeesTruthy(c, id) {
        MergeEntryIsFound(c, id, entry);
      }
    }
    Saved(ItemUpdate(Named(ws.modal, "id"), Named(ws.modal, "collectionKey"), MergeEntry(c, id, entry)), Closed)
  }

  /** `cancelModalItems()`: reset the workspace; no call reaches the owner. */
  function CancelModalItems(ws: Workspace): (r: Workspace)
    ensures !r.showModal && r.items == [] && r.modal == Obj(map[])
  {
    Closed
  }

  /** Save and cancel leave the same state. */
  lemma SaveAndCancelAgree(ws: Workspace, drafts: DraftMap, committed: seq<Value>)
    requires SaveOk(ws, drafts, committed)
    ensures SaveModalItems(ws, drafts, committed).next == CancelModalItems(ws)
  {
  }

  /** Line 310 and line 368: a row is editable exactly when its record has a draft. */
  function RowEditable(drafts: DraftMap, record: Value): (b: bool)
    ensures b <==> ToJsString(Named(record, "id")) in drafts && drafts[ToJsString(Named(record, "id"))] != Undef
  {
    IsEditing(drafts, Named(record, "id"))
  }

  /**
    The error a column shows for a row: `updatedItems[record.id].error[key]`
    while the row is editable, `record.error[key]` otherwise.
  */
  function RowError(drafts: DraftMap, record: Value, columnKey: string): (r: Value)
    requires record.Obj?
    requires RowEditable(drafts, record) ==> Named(DraftOf(drafts, Named(record, "id")), "error") != Undef
    requires !RowEditable(drafts, record) ==> Named(record, "error") != Undef
    ensures RowEditable(drafts, record) ==> r == Prop(Named(drafts[ToJsString(Named(record, "id"))], "error"), columnKey)
    ensures !RowEditable(drafts, record) ==> r == Prop(record.fields["error"], columnKey)
  {
    var source := if RowEditable(drafts, record)
                  then Named(DraftOf(drafts, Named(record, "id")), "error")
                  else Named(record, "error");
    Prop(source, columnKey)
  }

  /** The action column of one row: confirm/cancel while editing, edit/remove otherwise. */
  datatype RowActions =
    | Editing(confirm: ScrollList.Forwarded, cancel: ScrollList.Forwarded)
    | Idle(edit: ScrollList.Forwarded, removeId: Value)

  function Actions(items: seq<Value>, drafts: DraftMap, index: int): (r: RowActions)
    requires 0 <= index < |items|
    ensures r.Editing? <==> RowEditable(drafts, items[index])
    ensures r.Editing? ==> r.confirm == ScrollList.UpdateCall(DraftOf(drafts, Named(items[index], "id")), drafts, items[index])
    ensures r.Editing? ==> r.cancel == ScrollList.CancelCall(drafts, Named(items[index], "id"))
    ensures r.Idle? ==> r.removeId == Named(items[index], "id") && r.edit == ScrollList.EditCall(drafts, items[index])
  {
    var item := items[index];
    if DraftOf(drafts, Named(item, "id")) != Undef then
      Editing(ScrollList.OnUpdate(drafts, item), ScrollList.OnCancel(drafts, Named(item, "id")))
    else
      Idle(ScrollList.OnEdit(drafts, item), Named(item, "id"))
  }

  /**
    The table and the scroll list agree on which records are being edited: a
    row offers confirm/cancel exactly when the list entry for the same record is
    editable.
  */
  lemma RowRuleAgreesWithScrollList(items: seq<Value>, drafts: DraftMap, index: int)
    requires forall j :: 0 <= j < |items| ==> items[j].Obj?
    requires DraftsSpreadable(drafts)
    requires 0 <= index < |items|
    ensures Actions(items, drafts, index).Editing? <==> ScrollList.Entries(items, drafts)[index].editable
  {
    ScrollList.EntryMeaning(items, drafts, index);
  }

  /** A value the table's `getText` can read without a JavaScript exception. */
  predicate ListTextOk(kind: string, text: Value) {
    && (kind == "select" ==> text != Undef)
    && (kind in {"edit-multiple", "select-multiple"} ==>
          text.Arr? && forall i :: 0 <= i < |text.elems| ==> text.elems[i] != Undef)
  }

  /** `getText(type, text, options)` of the table's cells. */
  function ListText(kind: string, text: Value, options: seq<Value>): (r: Value)
    requires ListTextOk(kind, text)
    ensures kind == "password" ==> r == Str("********")
    ensures kind == "checkbox" ==> r == Str(if Truthy(text) then FormField.Yes else FormField.No)
    ensures kind == "select" ==> r == Named(text, "name")
    ensures kind in {"edit-multiple", "select-multiple"} && text.elems == [] ==> r == Str("")
    ensures kind !in {"radio", "select", "edit-multiple", "select-multiple", "checkbox", "password"} ==> r == text
  {
    match kind
    case "radio" => Prop(Arr(options), ToJsString(text))
    case "select" => Named(text, "name")
    case "edit-multiple" => Str(FormField.JoinNames(text.elems))
    case "select-multiple" => Str(FormField.JoinNames(text.elems))
    case "checkbox" => Str(if Truthy(text) then FormField.Yes else FormField.No)
    case "password" => Str("********")
    case _ => text
  }

  /**
    The table's display text agrees with the form field's for radio,
    select-multiple (and edit-multiple, its alias), checkbox and every unknown
    type; a select shows the chosen record's name, where the form field shows
    the value itself.
  */
  lemma ListTextMatchesFieldText(kind: string, text: Value, options: seq<Value>)
    requires ListTextOk(kind, text) && FormField.TextOk(kind, text)
    requires kind !in {"select", "password"}
    ensures ListText(kind, text, options) ==
              FormField.GetText(if kind == "edit-multiple" then "select-multiple" else kind, text, options)
  {
  }

  /** The radio cell shows the option at the selected index. */
  lemma ListRadioShowsOption(n: int, options: seq<Value>)
    requires 0 <= n < |options|
    ensures ListText("radio", Int(n), options) == options[n]
  {
    FormField.RadioShowsOption(n, options);
  }
}

=== FILE: masked_input.dfy ===
/**
  The mask formatter of components/form/MaskedInput.jsx.

  A mask is a string whose 'x' characters are mandatory slots, whose '?'
  characters are optional slots, and whose other characters are literals.
  `applyMask` walks the mask with one cursor and the raw input with another:
  an 'x' shows the next input character, or ' ' once the input is used up; a
  '?' shows the next input character only while the input is longer than the
  number of 'x' slots; a literal is copied. The keystroke handler keeps the raw
  input: Backspace drops its last character, a key that reads as a number
  appends itself while the input is shorter than all slots together, any other
  key is refused.
*/
module MaskedInput {
  import opened JsValues

  /** The number of occurrences of `c` in `s`. */
  function Count(s: string, c: char): (r: nat)
    ensures r <= |s|
    ensures c !in s ==> r == 0
  {
    if s == [] then 0 else (if s[0] == c then 1 else 0) + Count(s[1..], c)
  }

  /** Counting is additive: the occurrences in `a + b` are those in `a` plus those in `b`. */
  lemma {:induction false} CountConcat(a: string, b: string, c: char)
    ensures Count(a + b, c) == Count(a, c) + Count(b, c)
  {
    if a != [] {
      assert (a + b)[0] == a[0] && (a + b)[1..] == a[1..] + b;
      CountConcat(a[1..], b, c);
    } else {
      assert a + b == b;
    }
  }

  /** Counting the first character of a prefix. */
  lemma CountCons(c: char, t: string, k: int, d: char)
    requires 0 <= k <= |t|
    ensures Count(([c] + t)[..k + 1], d) == (if c == d then 1 else 0) + Count(t[..k], d)
  {
    assert ([c] + t)[..k + 1] == [c] + t[..k];
    assert ([c] + t[..k])[1..] == t[..k];
  }

  /** `(mask.match(/x/g) || []).length`: the number of mandatory slots. */
  function MaxInputSize(mask: string): (r: nat)
    ensures r <= |mask|
  {
    Count(mask, 'x')
  }

  /** `(mask.match(/\?/g) || []).length`: the number of optional slots. */
  function OptionalInputSize(mask: string): (r: nat)
    ensures r <= |mask|
  {
    Count(mask, '?')
  }

  /**
    The text `applyMask` produces, read off the mask from left to right; `on`
    says whether optional slots take input (`input.length > maxInputSize`).
  */
  function Render(mask: string, input: string, on: bool): (r: string)
    ensures |r| <= |mask|
  {
    if mask == [] then ""
    else if mask[0] == 'x' then
      if input != [] then [input[0]] + Render(mask[1..], input[1..], on)
      else " " + Render(mask[1..], input, on)
    else if mask[0] == '?' then
      if on && input != [] then [input[0]] + Render(mask[1..], input[1..], on)
      else Render(mask[1..], input, on)
    else [mask[0]] + Render(mask[1..], input, on)
  }

  /**
    Without optional input every '?' vanishes; in any case nothing else does,
    so the text is never longer than the mask.
  */
  lemma {:induction false} RenderLength(mask: string, input: string, on: bool)
    ensures var r := Render(mask, input, on);
            && |mask| - Count(mask, '?') <= |r| <= |mask|
            && (!on ==> |r| == |mask| - Count(mask, '?'))
  {
    if mask != [] {
      var consumes := mask[0] == 'x' || (mask[0] == '?' && on);
      RenderLength(mask[1..], if consumes && input != [] then input[1..] else input, on);
    }
  }

  /**
    `applyMask(mask, input)`. The slot count is the component's
    `maxInputSize`, computed once from the mask it was constructed with.
  */
  method ApplyMask(mask: string, input: string, maxInputSize: nat) returns (value: string)
    ensures |mask| - Count(mask, '?') <= |value| <= |mask|
    ensures value == Render(mask, input, |input| > maxInputSize)
  {
    ghost var on := |input| > maxInputSize;
    var i, j := 0, 0;
    value := "";
    while i < |mask|
      invariant 0 <= i <= |mask| && 0 <= j <= |input|
      invariant value + Render(mask[i..], input[j..], on) == Render(mask, input, on)
    {
      RenderStep(mask, input, on, i, j);
      ghost var tail := Render(mask[i..], input[j..], on);
      ghost var before := value;
      if mask[i] == 'x' {
        if j < |input| {
          assert tail == [input[j]] + Render(mask[i + 1..], input[j + 1..], on);
          value := value + [input[j]];
          j := j + 1;
        } else {
          assert tail == " " + Render(mask[i + 1..], input[j..], on);
          value := value + " ";
        }
      } else if mask[i] == '?' {
        if |input| > maxInputSize && j < |input| {
          assert tail == [input[j]] + Render(mask[i + 1..], input[j + 1..], on);
          value := value + [input[j]];
          j := j + 1;
        } else {
          assert tail == Render(mask[i + 1..], input[j..], on);
        }
      } else {
        assert tail == [mask[i]] + Render(mask[i + 1..], input[j..], on);
        value := value + [mask[i]];
      }
      i := i + 1;
      ghost var emitted := value[|before|..];
      ghost var rest := Render(mask[i..], input[j..], on);
      assert value == before + emitted;
      assert tail == emitted + rest;
      ConcatAssociative(before, emitted, rest);
    }
    assert value + Render(mask[i..], input[j..], on) == value;
    RenderLength(mask, input, on);
  }

  /** One step of the walk, at mask position `i` and input position `j`. */
  lemma RenderStep(mask: string, input: string, on: bool, i: int, j: int)
    requires 0 <= i < |mask| && 0 <= j <= |input|
    ensures Render(mask[i..], input[j..], on) ==
              if mask[i] == 'x' then
                if j < |input| then [input[j]] + Render(mask[i + 1..], input[j + 1..], on)
                else " " + Render(mask[i + 1..], input[j..], on)
              else if mask[i] == '?' then
                if on && j < |input| then [input[j]] + Render(mask[i + 1..], input[j + 1..], on)
                else Render(mask[i + 1..], input[j..], on)
              else [mask[i]] + Render(mask[i + 1..], input[j..], on)
  {
    assert mask[i..][0] == mask[i] && mask[i..][1..] == mask[i + 1..];
    if j < |input| {
      assert input[j..][0] == input[j] && input[j..][1..] == input[j + 1..];
    }
  }

  /** The mask with its optional slots removed. */
  function Squeeze(mask: string): (r: string)
    ensures |r| == |mask| - Count(mask, '?')
  {
    if mask == [] then []
    else if mask[0] == '?' then Squeeze(mask[1..])
    else [mask[0]] + Squeeze(mask[1..])
  }

  /**
    What position `k` of a mask without optional slots shows: the n-th input
    character at the n-th 'x' (' ' past the end of the input), the mask
    character elsewhere.
  */
  function Shown(t: string, input: string, k: int): char
    requires 0 <= k < |t|
  {
    if t[k] == 'x' then
      var n := Count(t[..k], 'x');
      if n < |input| then input[n] else ' '
    else t[k]
  }

  /**
    Without optional input (in particular whenever the input is no longer than
    the number of 'x' slots), every '?' emits nothing, each 'x' emits exactly
    one character (the input characters in order, then ' '), and every literal
    is copied in place.
  */
  lemma {:induction false} OffModeShape(mask: string, input: string)
    ensures var r := Render(mask, input, false);
            var t := Squeeze(mask);
            && |r| == |t|
            && forall k :: 0 <= k < |t| ==> r[k] == Shown(t, input, k)
  {
    if mask != [] {
      var rest := if mask[0] == 'x' && input != [] then input[1..] else input;
      OffModeShape(mask[1..], rest);
      if mask[0] != '?' {
        var r, r' := Render(mask, input, false), Render(mask[1..], rest, false);
        var t, t' := Squeeze(mask), Squeeze(mask[1..]);
        assert t == [mask[0]] + t';
        assert r == [Shown(t, input, 0)] + r';
        forall k | 1 <= k < |t|
          ensures r[k] == Shown(t, input, k)
        {
          ShownCons(mask[0], t', input, rest, k);
          assert r[k] == r'[k - 1];
        }
      }
    }
  }

  /** What a position shows after a leading mandatory slot or literal. */
  lemma ShownCons(c: char, t: string, input: string, rest: string, k: int)
    requires 1 <= k <= |t| && c != '?'
    requires rest == if c == 'x' && input != [] then input[1..] else input
    ensures Shown([c] + t, input, k) == Shown(t, rest, k - 1)
  {
    CountCons(c, t, k - 1, 'x');
    assert ([c] + t)[k] == t[k - 1];
  }

  /** A slot of either kind. */
  predicate IsSlot(c: char) {
    c == 'x' || c == '?'
  }

  /** The number of slots of either kind. */
  function Slots(s: string): nat {
    Count(s, 'x') + Count(s, '?')
  }

  /**
    What position `k` of the mask shows when optional slots take input: the
    n-th input character at the n-th slot of either kind, the mask character
    elsewhere (and ' ' at a slot past the end of the input, which a full input
    never reaches).
  */
  function Filled(mask: string, input: string, k: int): char
    requires 0 <= k < |mask|
  {
    if IsSlot(mask[k]) then
      var n := Slots(mask[..k]);
      if n < |input| then input[n] else ' '
    else mask[k]
  }

  /**
    With optional input and enough characters for every slot, each slot shows
    the next input character in order and every literal is copied: the output
    has the mask's length.
  */
  lemma {:induction false} OnModeShape(mask: string, input: string)
    requires |input| >= Slots(mask)
    ensures var r := Render(mask, input, true);
            && |r| == |mask|
            && forall k :: 0 <= k < |mask| ==> r[k] == Filled(mask, input, k)
  {
    if mask != [] {
      var rest := if IsSlot(mask[0]) then input[1..] else input;
      assert Slots(mask) == (if IsSlot(mask[0]) then 1 else 0) + Slots(mask[1..]);
      OnModeShape(mask[1..], rest);
      var r, r' := Render(mask, input, true), Render(mask[1..], rest, true);
      assert r == [Filled(mask, input, 0)] + r';
      forall k | 1 <= k < |mask|
        ensures r[k] == Filled(mask, input, k)
      {
        FilledCons(mask, input, rest, k);
        assert r[k] == r'[k - 1];
      }
    }
  }

  /** What a position shows after the first mask character. */
  lemma FilledCons(mask: string, input: string, rest: string, k: int)
    requires 1 <= k < |mask|
    requires IsSlot(mask[0]) ==> input != []
    requires rest == if IsSlot(mask[0]) then input[1..] else input
    ensures Filled(mask, input, k) == Filled(mask[1..], rest, k - 1)
  {
    SlotsCons(mask, k);
    assert mask[k] == mask[1..][k - 1];
  }

  /** Counting the slots of a prefix past the first character. */
  lemma SlotsCons(mask: string, k: int)
    requires 1 <= k <= |mask|
    ensures Slots(mask[..k]) == (if IsSlot(mask[0]) then 1 else 0) + Slots(mask[1..][..k - 1])
  {
    var t := mask[1..];
    assert mask[..k] == [mask[0]] + t[..k - 1];
    assert ([mask[0]] + t[..k - 1])[1..] == t[..k - 1];
  }

  /** The keyboard event fields the handler reads. */
  datatype KeyEvent = KeyEvent(key: string, meta: bool, ctrl: bool, shift: bool, alt: bool)

  /** `isSpecialKey(e)`: a modifier is held. */
  predicate IsSpecialKey(e: KeyEvent) {
    e.meta || e.ctrl || e.shift || e.alt
  }

  /**
    The white space `Number()` trims: tab, vertical tab, form feed, the byte
    order mark, every space separator (category Zs) and every line terminator.
  */
  predicate IsSpace(c: char) {
    || c in {'\t', '\U{000B}', '\U{000C}', '\U{FEFF}'}
    || c in {' ', '\U{00A0}', '\U{1680}', '\U{202F}', '\U{205F}', '\U{3000}'}
    || '\U{2000}' <= c <= '\U{200A}'
    || c in {'\n', '\r', '\U{2028}', '\U{2029}'}
  }

  /** `s` without leading and trailing white space. */
  function Trim(s: string): (r: string)
    ensures |r| <= |s|
    ensures r != [] ==> !IsSpace(r[0]) && !IsSpace(r[|r| - 1])
    decreases |s|
  {
    if s == [] then s
    else if IsSpace(s[0]) then Trim(s[1..])
    else if IsSpace(s[|s| - 1]) then Trim(s[..|s| - 1])
    else s
  }

  predicate AllDigits(s: string) {
    forall i :: 0 <= i < |s| ==> '0' <= s[i] <= '9'
  }

  /** The value of a run of decimal digits. */
  function DigitsValue(s: string): (r: nat)
    requires AllDigits(s)
  {
    if s == [] then 0 else 10 * DigitsValue(s[..|s| - 1]) + (s[|s| - 1] - '0') as nat
  }

  /**
    `+s` for the integer forms of a JavaScript numeric string: blank text is 0,
    an optional sign followed by decimal digits is that integer, anything else
    is `NaN` (`None`).
  */
  function ToNumber(s: string): (r: Option<int>)
    ensures Trim(s) == "" ==> r == Some(0)
    ensures AllDigits(s) && s != "" ==> r == Some(DigitsValue(s))
  {
    var t := Trim(s);
    if t == "" then Some(0)
    else if t[0] in {'+', '-'} && |t| > 1 && AllDigits(t[1..]) then
      var v: int := DigitsValue(t[1..]);
      Some(if t[0] == '-' then -v else v)
    else if AllDigits(t) then Some(DigitsValue(t))
    else None
  }

  /** `(+e.key) >= 0 || (+e.key) <= 9`; a comparison with `NaN` is false. */
  function ReadsAsNumber(key: string): (b: bool)
    ensures b <==> ToNumber(key).Some?
  {
    var n := ToNumber(key);
    n.Some? && (n.value >= 0 || n.value <= 9)
  }

  /** Any number passes the disjunction: the test only rejects `NaN`. */
  lemma ReadsAsNumberIffNumber(key: string)
    ensures ReadsAsNumber(key) <==> ToNumber(key).Some?
    ensures forall d :: '0' <= d <= '9' ==> ReadsAsNumber([d])
  {
    forall d | '0' <= d <= '9'
      ensures ReadsAsNumber([d])
    {
      assert AllDigits([d]);
    }
  }

  /** What `onKeyDown(e)` does. */
  datatype KeyOutcome =
    | Ignored            // a modifier is held: nothing happens
    | Changed(s: string) // `props.onChange(s)`
    | Prevented          // `e.preventDefault()`

  /** `onKeyDown(e)` on the current raw input (`undefined` reads as ''). */
  function KeyDown(input: Option<string>, e: KeyEvent, maxInputSize: nat, optionalInputSize: nat): (r: KeyOutcome)
    ensures IsSpecialKey(e) <==> r.Ignored?
    ensures !IsSpecialKey(e) && e.key != "Backspace" && !ReadsAsNumber(e.key) <==> r.Prevented?
  {
    if IsSpecialKey(e) then Ignored
    else
      var s := if input.Some? then input.value else "";
      if e.key == "Backspace" then Changed(if s == "" then "" else s[..|s| - 1])
      else if ReadsAsNumber(e.key) then
        Changed(if |s| < maxInputSize + optionalInputSize then s + e.key else s)
      else Prevented
  }

  /**
    A space-separator key such as U+3000 reads as 0, so with room left it is
    appended like a digit.
  */
  lemma WideSpaceKeyAppends(s: string, e: KeyEvent, maxInputSize: nat, optionalInputSize: nat)
    requires e.key == "\U{3000}" && !IsSpecialKey(e) && |s| < maxInputSize + optionalInputSize
    ensures ToNumber(e.key) == Some(0)
    ensures KeyDown(Some(s), e, maxInputSize, optionalInputSize) == Changed(s + e.key)
  {
    assert Trim(e.key) == "";
  }

  /** Backspace removes exactly the last character; '' stays ''. */
  lemma BackspaceDropsLast(s: string, e: KeyEvent, maxInputSize: nat, optionalInputSize: nat)
    requires e.key == "Backspace" && !IsSpecialKey(e)
    ensures var r := KeyDown(Some(s), e, maxInputSize, optionalInputSize);
            && r.Changed?
            && (s == "" ==> r.s == "")
            && (s != "" ==> r.s + [s[|s| - 1]] == s)
  {
  }

  /**
    A numeric keystroke appends the key while there is room and otherwise
    changes nothing, so with one-character keys an input within
    `maxInputSize + optionalInputSize` never grows past it.
  */
  lemma NumericKeyKeepsBound(s: string, e: KeyEvent, maxInputSize: nat, optionalInputSize: nat)
    requires !IsSpecialKey(e) && e.key != "Backspace" && ReadsAsNumber(e.key)
    ensures var r := KeyDown(Some(s), e, maxInputSize, optionalInputSize);
            && r.Changed?
            && (r.s == s + e.key <==> |s| < maxInputSize + optionalInputSize || e.key == "")
            && (|s| >= maxInputSize + optionalInputSize ==> r.s == s)
            && (|e.key| <= 1 && |s| <= maxInputSize + optionalInputSize ==> |r.s| <= maxInputSize + optionalInputSize)
  {
    var r := KeyDown(Some(s), e, maxInputSize, optionalInputSize);
    if |s| >= maxInputSize + optionalInputSize && r.s == s + e.key {
      assert |r.s| == |s| + |e.key|;
    }
  }

  /**
    A key whose first character lies between 'A' and 'z' is refused unless it
    is Backspace. That range holds the ASCII letters, hence every named key,
    and also the six characters `[ \ ] ^ _` and the backtick.
  */
  lemma NonNumericKeysPrevented(s: Option<string>, e: KeyEvent, maxInputSize: nat, optionalInputSize: nat)
    requires !IsSpecialKey(e)
    requires |e.key| >= 1 && 'A' <= e.key[0] <= 'z' && e.key != "Backspace"
    ensures KeyDown(s, e, maxInputSize, optionalInputSize) == Prevented
  {
    var t := Trim(e.key);
    TrimKeepsLetterHead(e.key);
  }

  /** A text whose first character lies between 'A' and 'z' does not read as a number. */
  lemma TrimKeepsLetterHead(s: string)
    requires |s| >= 1 && 'A' <= s[0] <= 'z'
    ensures ToNumber(s).None?
  {
    var t := Trim(s);
    assert !IsSpace(s[0]);
    TrimSuffixOnly(s);
    assert t != [] && t[0] == s[0];
  }

  /** Trimming a text whose first character is not white space only shortens its end. */
  lemma {:induction false} TrimSuffixOnly(s: string)
    requires |s| >= 1 && !IsSpace(s[0])
    ensures |Trim(s)| >= 1 && Trim(s)[0] == s[0]
    decreases |s|
  {
    if IsSpace(s[|s| - 1]) {
      TrimSuffixOnly(s[..|s| - 1]);
    }
  }

  /**
    The value the input box shows: nothing for an undefined or empty raw input,
    else the masked text.
  */
  function Displayed(mask: string, input: Option<string>, maxInputSize: nat): (r: Option<string>)
    ensures r.Some? <==> input.Some? && input.value != ""
    ensures r.Some? && |input.value| <= maxInputSize ==> |r.value| == |mask| - OptionalInputSize(mask)
  {
    if input.None? || input.value == "" then None
    else
      RenderLength(mask, input.value, |input.value| > maxInputSize);
      Some(Render(mask, input.value, |input.value| > maxInputSize))
  }
}

=== FILE: reducer.dfy ===
/**
  The collection store reducer of modules/reducers/base.js.

  `items(state, action, error, RECEIVE, ..., UPDATE_ALL)` is a pure state
  transition over a store object. A paginated store is
  `{total, page, limit, items}`; a singleton store is one bare record. The six
  action type names are parameters of the reducer (defaulting to
  'action1'..'action6') and the `error` argument is the value every received or
  inserted item is decorated with.

  JavaScript `Set` deduplication in RECEIVE and INSERT compares objects by
  identity. The decorated items are freshly built objects, never identical to an
  item already in the store, so the merge is modelled as the concatenation of
  the old items and the decorated ones.
*/
module CollectionReducer {
  import opened JsValues

  /** A store object: `{total, page, limit, items}`, or a bare record. */
  type Store = Record

  /** The six action type names the reducer is configured with. */
  datatype ActionTypes = ActionTypes(
    receive: string, remove: string, update: string,
    insert: string, receiveOne: string, updateAll: string)

  const DefaultTypes := ActionTypes("action1", "action2", "action3", "action4", "action5", "action6")

  datatype Kind = Receive | Remove | Update | Insert | ReceiveOne | UpdateAll | Other

  /** The `switch` on `action.type`: the first case label that matches wins. */
  function KindOf(types: ActionTypes, t: string): (k: Kind)
    ensures k == Other <==> t !in {types.receive, types.remove, types.update,
                                   types.insert, types.receiveOne, types.updateAll}
    ensures k == Receive <==> t == types.receive
  {
    if t == types.receive then Receive
    else if t == types.remove then Remove
    else if t == types.update then Update
    else if t == types.insert then Insert
    else if t == types.receiveOne then ReceiveOne
    else if t == types.updateAll then UpdateAll
    else Other
  }

  /** The part of `action.payload` each action kind reads. */
  datatype Payload =
    | Page(total: Value, page: int, limit: int, received: seq<Record>)  // payload.items
    | Id(id: Value)                                                     // payload.id
    | One(item: Record)                                                 // payload.item
    | Many(items: seq<Record>)                                          // payload.items

  datatype Action = Action(kind: string, payload: Payload)

  /** The payload carries what the action's kind reads. */
  predicate Fits(k: Kind, p: Payload) {
    match k
    case Receive => p.Page?
    case Remove => p.Id?
    case Update => p.One?
    case Insert => p.One?
    case ReceiveOne => p.One?
    case UpdateAll => p.Many?
    case Other => true
  }

  /** The store holds an `items` array. */
  predicate HasItems(s: Store) {
    "items" in s && s["items"].Arr?
  }

  function ItemsOf(s: Store): seq<Value>
    requires HasItems(s)
  {
    s["items"].elems
  }

  /** `state.page === undefined`: the store is a singleton record. */
  predicate IsSingleton(s: Store) {
    Get(s, "page") == Undef
  }

  /** The store reads `state.items` for this action. */
  predicate NeedsItems(k: Kind, s: Store) {
    k in {Receive, Remove, Insert, UpdateAll} || (k == Update && !IsSingleton(s))
  }

  /** `Object.assign({error, key: item.id}, item)`: the item's own fields win. */
  function DecorateReceived(item: Record, error: Value): (r: Value)
    ensures r.Obj? && r.fields.Keys == item.Keys + {"error", "key"}
    ensures forall f :: f in item ==> r.fields[f] == item[f]
    ensures "error" !in item ==> r.fields["error"] == error
    ensures "key" !in item ==> r.fields["key"] == Get(item, "id")
  {
    Obj(map["error" := error, "key" := Get(item, "id")] + item)
  }

  /** `{...item, error, key: item.id}`: the decoration wins. */
  function DecorateInserted(item: Record, error: Value): (r: Value)
    ensures r.Obj? && r.fields.Keys == item.Keys + {"error", "key"}
    ensures r.fields["error"] == error && r.fields["key"] == Get(item, "id")
    ensures forall f :: f in item && f !in {"error", "key"} ==> r.fields[f] == item[f]
  {
    Obj(item + map["error" := error, "key" := Get(item, "id")])
  }

  function DecorateAll(items: seq<Record>, error: Value): (r: seq<Value>)
    ensures |r| == |items|
    ensures forall i :: 0 <= i < |items| ==> r[i] == DecorateReceived(items[i], error)
  {
    seq(|items|, i requires 0 <= i < |items| => DecorateReceived(items[i], error))
  }

  /** The store after `action`, with `error` the decoration of new items. */
  function Reduce(s: Store, a: Action, error: Value, types: ActionTypes): (r: Store)
    requires Fits(KindOf(types, a.kind), a.payload)
    requires NeedsItems(KindOf(types, a.kind), s) ==> HasItems(s)
    ensures KindOf(types, a.kind) == Other ==> r == s
    ensures KindOf(types, a.kind) == ReceiveOne ==> r == a.payload.item
    ensures KindOf(types, a.kind) in {Remove, Insert, UpdateAll} ==>
              r.Keys == s.Keys && HasItems(r) && forall f :: f in s && f != "items" ==> r[f] == s[f]
  {
    match KindOf(types, a.kind)
    case Receive =>
      var p := a.payload;
      if |ItemsOf(s)| > p.page * p.limit then s
      else map["total" := p.total, "page" := Int(p.page), "limit" := Int(p.limit),
               "items" := Arr(ItemsOf(s) + DecorateAll(p.received, error))]
    case Remove =>
      s["items" := Arr(WithoutId(ItemsOf(s), a.payload.id))]
    case Update =>
      if IsSingleton(s) then s + a.payload.item
      else s["items" := Arr(ReplaceId(ItemsOf(s), Get(a.payload.item, "id"), Obj(a.payload.item)))]
    case Insert =>
      s["items" := Arr(ItemsOf(s) + [DecorateInserted(a.payload.item, error)])]
    case ReceiveOne =>
      a.payload.item
    case UpdateAll =>
      s["items" := Arr(ReplaceByIndex(ItemsOf(s), IndexById(a.payload.items)))]
    case Other =>
      s
  }

  /** RECEIVE is a no-op when the store already holds more than `page * limit` items. */
  lemma ReceiveGuard(s: Store, a: Action, error: Value, types: ActionTypes)
    requires KindOf(types, a.kind) == Receive && a.payload.Page? && HasItems(s)
    requires |ItemsOf(s)| > a.payload.page * a.payload.limit
    ensures Reduce(s, a, error, types) == s
  {
  }

  /**
    Otherwise RECEIVE yields the old items followed by the payload items in
    order, each decorated (its own fields winning), and takes total, page and
    limit from the payload.
  */
  lemma ReceiveAppends(s: Store, a: Action, error: Value, types: ActionTypes)
    requires KindOf(types, a.kind) == Receive && a.payload.Page? && HasItems(s)
    requires |ItemsOf(s)| <= a.payload.page * a.payload.limit
    ensures var r := Reduce(s, a, error, types);
            var before := ItemsOf(s);
            var got := a.payload.received;
            && r.Keys == {"total", "page", "limit", "items"}
            && r["total"] == a.payload.total && r["page"] == Int(a.payload.page) && r["limit"] == Int(a.payload.limit)
            && HasItems(r) && |ItemsOf(r)| == |before| + |got|
            && ItemsOf(r)[..|before|] == before
            && forall i :: 0 <= i < |got| ==>
                 var d := ItemsOf(r)[|before| + i];
                 && d.Obj? && d.fields.Keys == got[i].Keys + {"error", "key"}
                 && (forall f :: f in got[i] ==> d.fields[f] == got[i][f])
                 && ("error" !in got[i] ==> d.fields["error"] == error)
                 && ("key" !in got[i] ==> d.fields["key"] == Get(got[i], "id"))
  {
    var r := Reduce(s, a, error, types);
    assert ItemsOf(r) == ItemsOf(s) + DecorateAll(a.payload.received, error);
  }

  /**
    A delivery that brings the store past `page * limit` items cannot be applied
    twice: repeating the same RECEIVE is a no-op.
  */
  lemma ReceiveRepeatIsNoOp(s: Store, a: Action, error: Value, types: ActionTypes)
    requires KindOf(types, a.kind) == Receive && a.payload.Page? && HasItems(s)
    requires |ItemsOf(s)| + |a.payload.received| > a.payload.page * a.payload.limit
    ensures Reduce(Reduce(s, a, error, types), a, error, types) == Reduce(s, a, error, types)
  {
    var r := Reduce(s, a, error, types);
    if |ItemsOf(s)| <= a.payload.page * a.payload.limit {
      assert |ItemsOf(r)| == |ItemsOf(s)| + |a.payload.received|;
    }
  }

  /** REMOVE keeps exactly the items whose id differs, in their original order. */
  lemma RemoveKeepsOthers(s: Store, a: Action, error: Value, types: ActionTypes)
    requires KindOf(types, a.kind) == Remove && a.payload.Id? && HasItems(s)
    ensures var r := Reduce(s, a, error, types);
            && HasItems(r)
            && ItemsOf(r) == WithoutId(ItemsOf(s), a.payload.id)
            && (forall x :: x in ItemsOf(r) <==> x in ItemsOf(s) && Prop(x, "id") != a.payload.id)
            && ((forall i :: 0 <= i < |ItemsOf(s)| ==> Prop(ItemsOf(s)[i], "id") != a.payload.id) ==>
                  r == s)
  {
    if forall i :: 0 <= i < |ItemsOf(s)| ==> Prop(ItemsOf(s)[i], "id") != a.payload.id {
      WithoutIdAbsent(ItemsOf(s), a.payload.id);
    }
  }

  /**
    UPDATE of a paginated store keeps length and order and replaces every item
    whose id matches by the payload item; of a singleton store it merges the
    payload's fields into the store.
  */
  lemma UpdateReplaces(s: Store, a: Action, error: Value, types: ActionTypes)
    requires KindOf(types, a.kind) == Update && a.payload.One?
    requires !IsSingleton(s) ==> HasItems(s)
    ensures var r := Reduce(s, a, error, types);
            var item := a.payload.item;
            && (IsSingleton(s) ==>
                  r.Keys == s.Keys + item.Keys
                  && (forall f :: f in item ==> r[f] == item[f])
                  && (forall f :: f in s && f !in item ==> r[f] == s[f]))
            && (!IsSingleton(s) ==>
                  HasItems(r) && |ItemsOf(r)| == |ItemsOf(s)|
                  && (forall f :: f in s && f != "items" ==> f in r && r[f] == s[f])
                  && forall i :: 0 <= i < |ItemsOf(s)| ==>
                       ItemsOf(r)[i] == (if Prop(ItemsOf(s)[i], "id") == Get(item, "id") then Obj(item)
                                         else ItemsOf(s)[i]))
  {
  }

  /**
    INSERT appends exactly one item, decorated with the reducer's `error` and
    `key = item.id`; the existing items are untouched.
  */
  lemma InsertAppends(s: Store, a: Action, error: Value, types: ActionTypes)
    requires KindOf(types, a.kind) == Insert && a.payload.One? && HasItems(s)
    ensures var r := Reduce(s, a, error, types);
            var item := a.payload.item;
            && HasItems(r) && |ItemsOf(r)| == |ItemsOf(s)| + 1
            && ItemsOf(r)[..|ItemsOf(s)|] == ItemsOf(s)
            && var last := ItemsOf(r)[|ItemsOf(s)|];
               && last.Obj?
               && last.fields["error"] == error && last.fields["key"] == Get(item, "id")
               && forall f :: f in item && f !in {"error", "key"} ==> last.fields[f] == item[f]
  {
    assert ItemsOf(Reduce(s, a, error, types)) == ItemsOf(s) + [DecorateInserted(a.payload.item, error)];
  }

  /**
    INSERT of an item whose id no stored item carries, followed by REMOVE of
    that id, gives back the original store.
  */
  lemma InsertThenRemove(s: Store, item: Record, error: Value, types: ActionTypes)
    requires HasItems(s)
    requires KindOf(types, types.insert) == Insert && KindOf(types, types.remove) == Remove
    requires forall i :: 0 <= i < |ItemsOf(s)| ==> Prop(ItemsOf(s)[i], "id") != Get(item, "id")
    ensures var inserted := Reduce(s, Action(types.insert, One(item)), error, types);
            Reduce(inserted, Action(types.remove, Id(Get(item, "id"))), error, types) == s
  {
    var id := Get(item, "id");
    var d := DecorateInserted(item, error);
    var inserted := Reduce(s, Action(types.insert, One(item)), error, types);
    InsertStore(s, item, error, types);
    assert WithoutId(ItemsOf(s) + [d], id) == ItemsOf(s) by {
      WithoutIdConcat(ItemsOf(s), [d], id);
      WithoutIdAbsent(ItemsOf(s), id);
      assert Prop(d, "id") == id;
      assert WithoutId([d], id) == [];
    }
    RemoveStore(inserted, id, error, types);
    assert s["items" := Arr(ItemsOf(s))] == s;
  }

  /** INSERT as a store update. */
  lemma InsertStore(s: Store, item: Record, error: Value, types: ActionTypes)
    requires HasItems(s) && KindOf(types, types.insert) == Insert
    ensures Reduce(s, Action(types.insert, One(item)), error, types)
            == s["items" := Arr(ItemsOf(s) + [DecorateInserted(item, error)])]
  {
  }

  /** REMOVE as a store update. */
  lemma RemoveStore(s: Store, id: Value, error: Value, types: ActionTypes)
    requires HasItems(s) && KindOf(types, types.remove) == Remove
    ensures Reduce(s, Action(types.remove, Id(id)), error, types)
            == s["items" := Arr(WithoutId(ItemsOf(s), id))]
  {
  }

  /**
    UPDATE_ALL keeps length and order; an item whose id no payload entry
    carries is unchanged, a matching one becomes the LAST payload entry with
    that id (ids are compared as property keys, that is, as strings).
  */
  lemma UpdateAllReplaces(s: Store, a: Action, error: Value, types: ActionTypes, i: int)
    requires KindOf(types, a.kind) == UpdateAll && a.payload.Many? && HasItems(s)
    requires 0 <= i < |ItemsOf(s)|
    ensures var r := Reduce(s, a, error, types);
            var x := ItemsOf(s)[i];
            var k := ToJsString(Prop(x, "id"));
            && HasItems(r) && |ItemsOf(r)| == |ItemsOf(s)|
            && ((forall p :: p in a.payload.items ==> KeyOf(p) != k) ==> ItemsOf(r)[i] == x)
            && ((exists p :: p in a.payload.items && KeyOf(p) == k) ==>
                  ItemsOf(r)[i].Obj? && IsLastWithKey(a.payload.items, k, ItemsOf(r)[i].fields))
  {
    ReplaceByIndexMeaning(ItemsOf(s), a.payload.items, i);
  }

  /** RECEIVE_ONE switches to a singleton store holding exactly the payload record. */
  lemma ReceiveOneReplaces(s: Store, item: Record, error: Value, types: ActionTypes)
    requires KindOf(types, types.receiveOne) == ReceiveOne
    ensures Reduce(s, Action(types.receiveOne, One(item)), error, types) == item
  {
  }
}

=== FILE: scroll_list.dfy ===
/**
  The draft overlay of components/crud/ScrollList.jsx.

  `render` builds one list entry per committed item, in item order, handing the
  item's view the base record, the record overlaid with its draft
  (`{...el, ...updatedItems[el.id]}`) and an `editable` flag. The three
  handlers forward the draft buffer to the owner's callbacks.
*/
module ScrollList {
  import opened JsValues
  import opened Drafts

  /** The props one item's view receives. */
  datatype Entry = Entry(item: Value, updatedItem: Value, editable: bool)

  /**
    `u` is `el` overlaid with `d`: it has the fields of both, and takes each
    field from `d` when `d` has it, else from `el`.
  */
  predicate Overlaid(u: Value, el: Value, d: Value)
    requires el.Obj? && Spreadable(d)
  {
    && u.Obj?
    && u.fields.Keys == el.fields.Keys + Spread(d).Keys
    && forall f :: f in u.fields ==> u.fields[f] == if f in Spread(d) then Spread(d)[f] else el.fields[f]
  }

  /** `{...el, ...draft}`: each field from the draft when it has it, else from the base. */
  function Overlay(el: Value, draft: Value): (r: Value)
    requires el.Obj? && Spreadable(draft)
    ensures Overlaid(r, el, draft)
    ensures draft == Undef ==> r == el
  {
    Obj(el.fields + Spread(draft))
  }

  /**
    The entry for one committed item: the item itself, the item overlaid with
    its draft, and `editable` exactly when the item has a draft.
  */
  function EntryFor(el: Value, drafts: DraftMap): (e: Entry)
    requires el.Obj? && DraftsSpreadable(drafts)
    ensures e.item == el
    ensures e.editable <==> IsEditing(drafts, Named(el, "id"))
    ensures Overlaid(e.updatedItem, el, DraftOf(drafts, Named(el, "id")))
    ensures !e.editable ==> e.updatedItem == el
  {
    var draft := DraftOf(drafts, Named(el, "id"));
    Entry(el, Overlay(el, draft), draft != Undef)
  }

  /** `items.reduce((acc, el) => acc.concat([entry(el)]), acc)`. */
  function EntriesFrom(items: seq<Value>, drafts: DraftMap, acc: seq<Entry>): (r: seq<Entry>)
    requires forall i :: 0 <= i < |items| ==> items[i].Obj?
    requires DraftsSpreadable(drafts)
    ensures |r| == |acc| + |items|
    ensures r[..|acc|] == acc
    ensures forall i :: |acc| <= i < |r| ==> r[i] == EntryFor(items[i - |acc|], drafts)
  {
    if items == [] then acc
    else
      var acc' := acc + [EntryFor(items[0], drafts)];
      var r := EntriesFrom(items[1..], drafts, acc');
      assert r[..|acc|] == acc by {
        assert r[..|acc|] == r[..|acc'|][..|acc|];
      }
      assert forall i :: |acc| <= i < |r| ==> r[i] == EntryFor(items[i - |acc|], drafts) by {
        forall i | |acc| <= i < |r|
          ensures r[i] == EntryFor(items[i - |acc|], drafts)
        {
          if i == |acc| {
            assert r[i] == r[..|acc'|][i] == acc'[i];
          } else {
            assert items[i - |acc|] == items[1..][i - |acc'|];
          }
        }
      }
      r
  }

  /** The list `render` builds: one entry per item, in item order. */
  function Entries(items: seq<Value>, drafts: DraftMap): (r: seq<Entry>)
    requires forall i :: 0 <= i < |items| ==> items[i].Obj?
    requires DraftsSpreadable(drafts)
    ensures |r| == |items|
    ensures forall i :: 0 <= i < |items| ==> r[i] == EntryFor(items[i], drafts)
  {
    EntriesFrom(items, drafts, [])
  }

  /**
    Entry `i` of the list shows item `i`; it is editable exactly when the item
    has a draft; its overlaid record takes each field from the draft when the
    draft has it, else from the item, and with no draft it is the item itself.
  */
  lemma EntryMeaning(items: seq<Value>, drafts: DraftMap, i: int)
    requires forall j :: 0 <= j < |items| ==> items[j].Obj?
    requires DraftsSpreadable(drafts)
    requires 0 <= i < |items|
    ensures var e := Entries(items, drafts)[i];
            && e.item == items[i]
            && (e.editable <==> DraftOf(drafts, Named(items[i], "id")) != Undef)
            && Overlaid(e.updatedItem, items[i], DraftOf(drafts, Named(items[i], "id")))
            && (!e.editable ==> e.updatedItem == items[i])
  {
    assert Entries(items, drafts)[i] == EntryFor(items[i], drafts);
  }

  /** What the three handlers hand to the owner's callbacks. */
  datatype Forwarded =
    | UpdateCall(draft: Value, drafts: DraftMap, item: Value)  // onUpdate(updatedItems[item.id], updatedItems, item)
    | CancelCall(drafts: DraftMap, id: Value)                   // onCancel(updatedItems, id)
    | EditCall(drafts: DraftMap, item: Value)                   // onEdit(updatedItems, item)

  function OnUpdate(drafts: DraftMap, item: Value): (r: Forwarded)
    ensures r.UpdateCall? && r.drafts == drafts && r.item == item
    ensures r.draft != Undef <==> IsEditing(drafts, Named(item, "id"))
    ensures r.draft != Undef ==> r.draft == drafts[ToJsString(Named(item, "id"))]
  {
    UpdateCall(DraftOf(drafts, Named(item, "id")), drafts, item)
  }

  function OnCancel(drafts: DraftMap, id: Value): (r: Forwarded)
    ensures r.CancelCall? && r.drafts == drafts && r.id == id
  {
    CancelCall(drafts, id)
  }

  function OnEdit(drafts: DraftMap, item: Value): (r: Forwarded)
    ensures r.EditCall? && r.drafts == drafts && r.item == item
  {
    EditCall(drafts, item)
  }

  /**
    Confirming an entry forwards the very draft the entry was rendered from:
    a defined draft exactly when the entry is editable, and the entry's
    overlaid record is the base overlaid with the forwarded draft. Cancel and
    edit forward the whole buffer unchanged.
  */
  lemma ForwardedDraftMatchesEntry(items: seq<Value>, drafts: DraftMap, i: int)
    requires forall j :: 0 <= j < |items| ==> items[j].Obj?
    requires DraftsSpreadable(drafts)
    requires 0 <= i < |items|
    ensures var e := Entries(items, drafts)[i];
            var call := OnUpdate(drafts, e.item);
            && call.drafts == drafts && call.item == items[i]
            && (call.draft != Undef <==> e.editable)
            && e.updatedItem == Overlay(items[i], call.draft)
            && OnCancel(drafts, Named(e.item, "id")).drafts == drafts
            && OnEdit(drafts, e.item) == EditCall(drafts, items[i])
  {
    var el := items[i];
    assert Entries(items, drafts)[i] == EntryFor(el, drafts);
    assert EntryFor(el, drafts) == Entry(el, Overlay(el, DraftOf(drafts, Named(el, "id"))), DraftOf(drafts, Named(el, "id")) != Undef);
  }
}

=== FILE: validation.dfy ===
/**
  The recursive form validator of components/form/helpers.js.

  `validate(item, validation, items)` folds over the keys of the schema object
  `validation`. Each key's rule object is checked against `item[key]` in the
  fixed order nested, required, equalTo, unique; the first rule that fails
  writes the field's error, a field no rule fails gets `{}`. The fold returns
  `{valid, error}`.

  Two definitions live here. `Validate` is the order-free reference: one
  `CheckField` per schema key. `ValidateReduce` is the fold exactly as written,
  over the keys in whatever order `Object.keys` yields them. `ReduceIsValidate`
  proves every such order gives the reference result.
*/
module Validation {
  import opened JsValues

  const RequiredMessage := "Este campo é obrigatório!"
  const MismatchMessage := "Valores não são iguais!"
  const DuplicateMessage := "Ja existem outros itens com este mesmo valor!"

  /** The error object of a failed rule: `{validateStatus: 'error', msg}`. */
  function Failure(msg: string): (r: Value)
    ensures r.Obj? && Get(r.fields, "msg") == Str(msg)
    ensures r != Passed
  {
    var r := Obj(map["validateStatus" := Str("error"), "msg" := Str(msg)]);
    assert "msg" in r.fields && "msg" !in Passed.fields;
    r
  }

  /** The error of a field that passed: `{}`. */
  const Passed: Value := Obj(map[])

  /** The validator's result `{valid, error}`. */
  datatype Verdict = Verdict(valid: bool, error: Record)

  /** The outcome of one field's rule chain. */
  datatype Check = Check(passed: bool, error: Value)

  /** The `required` test: `v === undefined || v === '' || v.length === 0`. */
  predicate IsBlank(v: Value) {
    v == Undef || v == Str("") || Prop(v, "length") == Int(0)
  }

  /**
    A schema the validator can walk without a JavaScript exception: an object
    whose rule values are defined; a `nested` rule is itself such a schema and,
    as the nested call passes no sibling list, reaches no `unique` rule there.
  */
  predicate SchemaOk(schema: Value, hasSiblings: bool)
    decreases schema, 0
  {
    schema.Obj? && forall k | k in schema.fields :: RuleOk(schema.fields[k], hasSiblings)
  }

  predicate RuleOk(rule: Value, hasSiblings: bool)
    decreases rule, 1
  {
    && rule != Undef
    && (if Truthy(Named(rule, "nested")) then SchemaOk(rule, false)
        else hasSiblings || !Truthy(Named(rule, "unique")))
  }

  /** The sibling list: `undefined`, or an array whose elements can be read. */
  predicate SiblingsOk(siblings: Option<seq<Value>>) {
    siblings.Some? ==> forall i :: 0 <= i < |siblings.value| ==> siblings.value[i] != Undef
  }

  /** `items.find(e => e[key] === v)`: the first sibling holding `v`, else `undefined`. */
  function FindByField(siblings: seq<Value>, key: string, v: Value): (r: Value)
    ensures r != Undef ==> r in siblings && Prop(r, key) == v
    ensures (forall i :: 0 <= i < |siblings| ==> Prop(siblings[i], key) != v) ==> r == Undef
    ensures r == Undef && (forall i :: 0 <= i < |siblings| ==> siblings[i] != Undef) ==>
              forall i :: 0 <= i < |siblings| ==> Prop(siblings[i], key) != v
  {
    if siblings == [] then Undef
    else if Prop(siblings[0], key) == v then siblings[0]
    else FindByField(siblings[1..], key, v)
  }

  /** One field's rule chain, in the source's priority order. */
  function CheckField(item: Value, key: string, rule: Value, siblings: Option<seq<Value>>): (c: Check)
    requires item != Undef && RuleOk(rule, siblings.Some?) && SiblingsOk(siblings)
    decreases rule, 1
    ensures Truthy(Named(rule, "nested")) ==> c.error.Obj? && c.error.fields.Keys == rule.fields.Keys
    ensures !Truthy(Named(rule, "nested")) ==> (c.passed <==> c.error == Passed)
    ensures !Truthy(Named(rule, "nested")) && Truthy(Named(rule, "required")) && IsBlank(Prop(item, key)) ==>
              c.error == Failure(RequiredMessage)
    ensures (!Truthy(Named(rule, "nested")) && !Truthy(Named(rule, "required")) &&
             !Truthy(Named(rule, "equalTo")) && !Truthy(Named(rule, "unique"))) ==> c.passed
  {
    var v := Prop(item, key);
    if Truthy(Named(rule, "nested")) then
      var sub := Validate(if Truthy(v) then v else Obj(map[]), rule, None);
      Check(sub.valid, Obj(sub.error))
    else if Truthy(Named(rule, "required")) && IsBlank(v) then
      Check(false, Failure(RequiredMessage))
    else if Truthy(Named(rule, "equalTo")) && v != Prop(item, ToJsString(Named(rule, "equalTo"))) then
      Check(false, Failure(MismatchMessage))
    else if Truthy(Named(rule, "unique")) && Truthy(FindByField(siblings.value, key, v)) then
      Check(false, Failure(DuplicateMessage))
    else
      Check(true, Passed)
  }

  /**
    The reference validator: one error entry per schema key and nothing else,
    and `valid` exactly when every field's rule chain passed.
  */
  function Validate(item: Value, schema: Value, siblings: Option<seq<Value>>): (r: Verdict)
    requires item != Undef && SchemaOk(schema, siblings.Some?) && SiblingsOk(siblings)
    decreases schema, 0
    ensures r.error.Keys == schema.fields.Keys
    ensures r.valid <==> forall k :: k in schema.fields ==> CheckField(item, k, schema.fields[k], siblings).passed
  {
    Verdict(
      forall k | k in schema.fields :: CheckField(item, k, schema.fields[k], siblings).passed,
      map k | k in schema.fields :: CheckField(item, k, schema.fields[k], siblings).error)
  }

  /** One iteration of the `reduce` callback. */
  function Step(item: Value, schema: Value, siblings: Option<seq<Value>>, acc: Verdict, el: string): (r: Verdict)
    requires item != Undef && SchemaOk(schema, siblings.Some?) && SiblingsOk(siblings)
    requires el in schema.fields
    ensures r.error.Keys == acc.error.Keys + {el}
    ensures !acc.valid ==> !r.valid
    ensures r.valid <==> acc.valid && CheckField(item, el, schema.fields[el], siblings).passed
    ensures r.error[el] == CheckField(item, el, schema.fields[el], siblings).error
    ensures forall k :: k in acc.error && k != el ==> r.error[k] == acc.error[k]
  {
    var c := CheckField(item, el, schema.fields[el], siblings);
    Verdict(c.passed && acc.valid, acc.error[el := c.error])
  }

  /** `Object.keys(validation).reduce(step, acc)` for the key order `keys`. */
  function ValidateReduce(item: Value, schema: Value, siblings: Option<seq<Value>>,
                          keys: seq<string>, acc: Verdict): (r: Verdict)
    requires item != Undef && SchemaOk(schema, siblings.Some?) && SiblingsOk(siblings)
    requires forall i :: 0 <= i < |keys| ==> keys[i] in schema.fields
    ensures r.error.Keys == acc.error.Keys + set k | k in keys
  {
    if keys == [] then acc
    else ValidateReduce(item, schema, siblings, keys[1..], Step(item, schema, siblings, acc, keys[0]))
  }

  /** The fold from any accumulator: validity is conjoined, errors are overlaid. */
  lemma {:induction false} ReduceFrom(item: Value, schema: Value, siblings: Option<seq<Value>>,
                                      keys: seq<string>, acc: Verdict)
    requires item != Undef && SchemaOk(schema, siblings.Some?) && SiblingsOk(siblings)
    requires forall i :: 0 <= i < |keys| ==> keys[i] in schema.fields
    ensures var r := ValidateReduce(item, schema, siblings, keys, acc);
      && (r.valid <==> acc.valid && forall k :: k in keys ==> CheckField(item, k, schema.fields[k], siblings).passed)
      && (forall k :: k in keys ==> r.error[k] == CheckField(item, k, schema.fields[k], siblings).error)
      && (forall k :: k in acc.error && k !in keys ==> r.error[k] == acc.error[k])
  {
    if keys != [] {
      var next := Step(item, schema, siblings, acc, keys[0]);
      ReduceFrom(item, schema, siblings, keys[1..], next);
      assert forall k :: k in keys <==> k == keys[0] || k in keys[1..];
    }
  }

  /**
    The fold as written, over ANY enumeration of the schema's keys, starting from
    `{valid: true, error: {}}`, yields the reference verdict: the result does not
    depend on the order `Object.keys` happens to produce.
  */
  lemma ReduceIsValidate(item: Value, schema: Value, siblings: Option<seq<Value>>, keys: seq<string>)
    requires item != Undef && SchemaOk(schema, siblings.Some?) && SiblingsOk(siblings)
    requires forall k :: k in keys <==> k in schema.fields
    ensures ValidateReduce(item, schema, siblings, keys, Verdict(true, map[])) == Validate(item, schema, siblings)
  {
    var r := ValidateReduce(item, schema, siblings, keys, Verdict(true, map[]));
    var v := Validate(item, schema, siblings);
    ReduceFrom(item, schema, siblings, keys, Verdict(true, map[]));
    assert r.error == v.error by {
      assert r.error.Keys == v.error.Keys;
      forall k | k in v.error
        ensures r.error[k] == v.error[k]
      {
        assert k in keys;
      }
    }
  }

  /** A failing field makes the fold invalid whatever the fields before it did. */
  lemma FailingFieldForcesInvalid(item: Value, schema: Value, siblings: Option<seq<Value>>,
                                  keys: seq<string>, acc: Verdict, k: string)
    requires item != Undef && SchemaOk(schema, siblings.Some?) && SiblingsOk(siblings)
    requires forall i :: 0 <= i < |keys| ==> keys[i] in schema.fields
    requires k in keys && !CheckField(item, k, schema.fields[k], siblings).passed
    ensures !ValidateReduce(item, schema, siblings, keys, acc).valid
  {
    ReduceFrom(item, schema, siblings, keys, acc);
  }

  /**
    An error value carrying no message anywhere: an object all of whose
    entries are again clean. `{}` is clean; a rule failure is not.
  */
  predicate Clean(e: Value) {
    e.Obj? && forall k | k in e.fields :: Clean(e.fields[k])
  }

  /**
    `valid` is true exactly when the returned error map, nested maps included,
    holds no error message.
  */
  lemma {:induction false} ValidIffClean(item: Value, schema: Value, siblings: Option<seq<Value>>)
    requires item != Undef && SchemaOk(schema, siblings.Some?) && SiblingsOk(siblings)
    decreases schema, 0
    ensures Validate(item, schema, siblings).valid <==> Clean(Obj(Validate(item, schema, siblings).error))
  {
    var r := Validate(item, schema, siblings);
    forall k | k in schema.fields
      ensures CheckField(item, k, schema.fields[k], siblings).passed <==> Clean(r.error[k])
    {
      CheckPassedIffClean(item, k, schema.fields[k], siblings);
    }
  }

  lemma {:induction false} CheckPassedIffClean(item: Value, key: string, rule: Value, siblings: Option<seq<Value>>)
    requires item != Undef && RuleOk(rule, siblings.Some?) && SiblingsOk(siblings)
    decreases rule, 1
    ensures CheckField(item, key, rule, siblings).passed <==> Clean(CheckField(item, key, rule, siblings).error)
  {
    var v := Prop(item, key);
    if Truthy(Named(rule, "nested")) {
      ValidIffClean(if Truthy(v) then v else Obj(map[]), rule, None);
    } else {
      var c := CheckField(item, key, rule, siblings);
      if !c.passed {
        assert "msg" in c.error.fields && !Clean(c.error.fields["msg"]);
      }
    }
  }

  /** A field's entry in the verdict is its own rule chain's outcome. */
  lemma FieldOutcome(item: Value, schema: Value, siblings: Option<seq<Value>>, k: string)
    requires item != Undef && SchemaOk(schema, siblings.Some?) && SiblingsOk(siblings)
    requires k in schema.fields
    ensures RuleOk(schema.fields[k], siblings.Some?)
    ensures Validate(item, schema, siblings).error[k] == CheckField(item, k, schema.fields[k], siblings).error
    ensures !CheckField(item, k, schema.fields[k], siblings).passed ==> !Validate(item, schema, siblings).valid
  {
  }

  /**
    `required` on a field that is not nested fails exactly when the value is
    undefined, `''` or has length 0, with the fixed "required" message, and a
    failure makes the whole verdict invalid.
  */
  lemma RequiredRule(item: Value, schema: Value, siblings: Option<seq<Value>>, k: string)
    requires item != Undef && SchemaOk(schema, siblings.Some?) && SiblingsOk(siblings)
    requires k in schema.fields
    requires !Truthy(Named(schema.fields[k], "nested")) && Truthy(Named(schema.fields[k], "required"))
    ensures var v := Prop(item, k);
            Validate(item, schema, siblings).error[k] == Failure(RequiredMessage) <==>
              v == Undef || v == Str("") || (v.Arr? && |v.elems| == 0) ||
              (v.Obj? && Get(v.fields, "length") == Int(0))
    ensures IsBlank(Prop(item, k)) ==> !Validate(item, schema, siblings).valid
  {
    FieldOutcome(item, schema, siblings, k);
    var v := Prop(item, k);
    var c := CheckField(item, k, schema.fields[k], siblings);
    assert IsBlank(v) ==> c.error == Failure(RequiredMessage);
    assert !IsBlank(v) ==> c.error != Failure(RequiredMessage) by {
      if !IsBlank(v) {
        assert Failure(RequiredMessage).fields["msg"] == Str(RequiredMessage);
      }
    }
  }

  /**
    `equalTo` on a field that is not nested and passed `required` fails exactly
    when the value differs from the value of the field `equalTo` names.
  */
  lemma EqualToRule(item: Value, schema: Value, siblings: Option<seq<Value>>, k: string)
    requires item != Undef && SchemaOk(schema, siblings.Some?) && SiblingsOk(siblings)
    requires k in schema.fields
    requires var rule := schema.fields[k];
             !Truthy(Named(rule, "nested")) && !(Truthy(Named(rule, "required")) && IsBlank(Prop(item, k)))
    requires Truthy(Named(schema.fields[k], "equalTo"))
    ensures var other := ToJsString(Named(schema.fields[k], "equalTo"));
            Validate(item, schema, siblings).error[k] == Failure(MismatchMessage) <==>
              Prop(item, k) != Prop(item, other)
  {
    FieldOutcome(item, schema, siblings, k);
    var c := CheckField(item, k, schema.fields[k], siblings);
    var other := ToJsString(Named(schema.fields[k], "equalTo"));
    if Prop(item, k) != Prop(item, other) {
      assert c.error == Failure(MismatchMessage);
    } else {
      assert c.error == Passed || c.error == Failure(DuplicateMessage);
      assert Failure(MismatchMessage) != Passed by {
        assert "msg" !in Passed.fields;
      }
      assert Failure(MismatchMessage) != Failure(DuplicateMessage) by {
        assert Failure(DuplicateMessage).fields["msg"] == Str(DuplicateMessage);
      }
    }
  }

  /**
    `unique` on a field that passed the earlier rules fails exactly when some
    sibling record holds the same value; with no siblings it never fails.
  */
  lemma UniqueRule(item: Value, schema: Value, siblings: seq<Value>, k: string)
    requires item != Undef && SchemaOk(schema, true) && SiblingsOk(Some(siblings))
    requires forall i :: 0 <= i < |siblings| ==> siblings[i].Obj?
    requires k in schema.fields
    requires var rule := schema.fields[k]; var v := Prop(item, k);
             && !Truthy(Named(rule, "nested"))
             && !(Truthy(Named(rule, "required")) && IsBlank(v))
             && !(Truthy(Named(rule, "equalTo")) && v != Prop(item, ToJsString(Named(rule, "equalTo"))))
             && Truthy(Named(rule, "unique"))
    ensures Validate(item, schema, Some(siblings)).error[k] == Failure(DuplicateMessage) <==>
              exists i :: 0 <= i < |siblings| && Get(siblings[i].fields, k) == Prop(item, k)
    ensures siblings == [] ==> Validate(item, schema, Some(siblings)).error[k] == Passed
  {
    FieldOutcome(item, schema, Some(siblings), k);
    var v := Prop(item, k);
    var found := FindByField(siblings, k, v);
    var c := CheckField(item, k, schema.fields[k], Some(siblings));
    assert c.error == (if Truthy(found) then Failure(DuplicateMessage) else Passed);
    assert Passed != Failure(DuplicateMessage) by {
      assert "msg" !in Passed.fields;
    }
    if exists i :: 0 <= i < |siblings| && Get(siblings[i].fields, k) == v {
      var i :| 0 <= i < |siblings| && Get(siblings[i].fields, k) == v;
      assert Prop(siblings[i], k) == v;
      assert found != Undef && found in siblings;
    }
  }

  /**
    At most one rule writes a field's error: a `nested` field gets its sub-error
    map; otherwise the error is the first failing rule's message in the order
    required, equalTo, unique, and `{}` when none fails.
  */
  lemma RulePriority(item: Value, schema: Value, siblings: Option<seq<Value>>, k: string)
    requires item != Undef && SchemaOk(schema, siblings.Some?) && SiblingsOk(siblings)
    requires k in schema.fields
    ensures var rule := schema.fields[k];
            var v := Prop(item, k);
            var e := Validate(item, schema, siblings).error[k];
            var nested := Truthy(Named(rule, "nested"));
            var blank := Truthy(Named(rule, "required")) && IsBlank(v);
            var mismatch := Truthy(Named(rule, "equalTo")) && v != Prop(item, ToJsString(Named(rule, "equalTo")));
            && (nested ==> e.Obj? && e.fields.Keys == rule.fields.Keys)
            && (!nested && blank ==> e == Failure(RequiredMessage))
            && (!nested && !blank && mismatch ==> e == Failure(MismatchMessage))
            && (!nested && !blank && !mismatch && !Truthy(Named(rule, "unique")) ==> e == Passed)
            && (!nested ==> e in {Passed, Failure(RequiredMessage), Failure(MismatchMessage), Failure(DuplicateMessage)})
  {
    FieldOutcome(item, schema, siblings, k);
  }

  /**
    A `nested` field is validated on `item[key]` (on `{}` when that is falsy)
    with the field's own rule object as schema and no sibling list; its error is
    the sub-error map and its validity is conjoined into the result.
  */
  lemma NestedRule(item: Value, schema: Value, siblings: Option<seq<Value>>, k: string)
    requires item != Undef && SchemaOk(schema, siblings.Some?) && SiblingsOk(siblings)
    requires k in schema.fields && Truthy(Named(schema.fields[k], "nested"))
    ensures SchemaOk(schema.fields[k], false)
    ensures var v := Prop(item, k);
            var sub := Validate(if Truthy(v) then v else Obj(map[]), schema.fields[k], None);
            && Validate(item, schema, siblings).error[k] == Obj(sub.error)
            && (!sub.valid ==> !Validate(item, schema, siblings).valid)
  {
    FieldOutcome(item, schema, siblings, k);
  }

  /** The password-confirmation example: only the mismatching field reports an error. */
  lemma PasswordConfirmationExample()
    ensures var schema := Obj(map["password" := Obj(map[]), "confirm" := Obj(map["equalTo" := Str("password")])]);
            var item := Obj(map["password" := Str("x"), "confirm" := Str("y")]);
            var r := Validate(item, schema, Some([]));
            && !r.valid
            && r.error == map["password" := Passed, "confirm" := Failure(MismatchMessage)]
  {
    var schema := Obj(map["password" := Obj(map[]), "confirm" := Obj(map["equalTo" := Str("password")])]);
    var item := Obj(map["password" := Str("x"), "confirm" := Str("y")]);
    assert Named(Obj(map["equalTo" := Str("password")]), "equalTo") == Str("password");
    assert Prop(item, "confirm") == Str("y") && Prop(item, "password") == Str("x");
    assert !CheckField(item, "confirm", schema.fields["confirm"], Some([])).passed;
  }
}

=== FILE: values.dfy ===
/**
  The JavaScript values the editing engine works on.

  Every component of the engine passes plain JavaScript objects around: records
  are objects with an `id`, a `key` and an `error` field, collections are arrays
  of records, validation schemas are objects of rule objects. `Value` is the
  closed set of such values this model uses; `Record` is the field map of an
  object. The helpers below give the JavaScript meaning of the few operators the
  engine relies on: property access, truthiness, string conversion (which is also
  how an object coerces a value into a property key) and object spread.
*/
module JsValues {

  datatype Option<+T> = None | Some(value: T)

  /** A JavaScript value. There is no `null`, no `NaN` and no fractional number. */
  datatype Value =
    | Undef
    | Str(s: string)
    | Int(n: int)
    | Bool(b: bool)
    | Arr(elems: seq<Value>)
    | Obj(fields: map<string, Value>)

  /** The own fields of a JavaScript object. */
  type Record = map<string, Value>

  /** `m[k]` on an object: a missing field reads as `undefined`. */
  function Get(m: Record, k: string): (r: Value)
    ensures k in m ==> r == m[k]
    ensures k !in m ==> r == Undef
  {
    if k in m then m[k] else Undef
  }

  /** JavaScript truthiness: `undefined`, `''`, `0` and `false` are falsy. */
  predicate Truthy(v: Value) {
    match v
    case Undef => false
    case Str(s) => s != ""
    case Int(n) => n != 0
    case Bool(b) => b
    case Arr(_) => true
    case Obj(_) => true
  }

  function DigitChar(d: nat): (c: char)
    requires d < 10
    ensures '0' <= c <= '9'
  {
    "0123456789"[d]
  }

  /** The decimal text of a natural number, most significant digit first. */
  function Digits(n: nat): (r: string)
    ensures |r| >= 1
    ensures forall i :: 0 <= i < |r| ==> '0' <= r[i] <= '9'
  {
    if n < 10 then [DigitChar(n)] else Digits(n / 10) + [DigitChar(n % 10)]
  }

  /** `String(n)` for an integer. */
  function Decimal(n: int): (r: string)
    ensures |r| >= 1
    ensures n >= 0 ==> forall i :: 0 <= i < |r| ==> '0' <= r[i] <= '9'
  {
    if n < 0 then "-" + Digits(-n) else Digits(n)
  }

  /** String concatenation is associative. */
  lemma ConcatAssociative(a: string, b: string, c: string)
    ensures (a + b) + c == a + (b + c)
  {
  }

  /** `ss.join(sep)`. */
  function JoinWith(ss: seq<string>, sep: string): (r: string)
    ensures ss == [] ==> r == ""
    ensures |ss| == 1 ==> r == ss[0]
  {
    if ss == [] then ""
    else if |ss| == 1 then ss[0]
    else ss[0] + sep + JoinWith(ss[1..], sep)
  }

  /**
    `String(v)`, the conversion a template literal applies and the one an object
    applies to a computed property key. An array joins its elements with ","
    (an undefined element contributes nothing); every object is "[object Object]".
  */
  function ToJsString(v: Value): (r: string)
    ensures v.Str? ==> r == v.s
    ensures v.Undef? ==> r == "undefined"
    ensures v.Obj? ==> r == "[object Object]"
  {
    match v
    case Undef => "undefined"
    case Str(s) => s
    case Int(n) => Decimal(n)
    case Bool(b) => if b then "true" else "false"
    case Arr(a) =>
      JoinWith(seq(|a|, i requires 0 <= i < |a| => if a[i].Undef? then "" else ToJsString(a[i])), ",")
    case Obj(_) => "[object Object]"
  }

  /** The index `n < len` whose decimal text is `k`, searching from `from`. */
  function IndexKey(k: string, len: nat, from: nat): (r: Option<nat>)
    decreases len - from
    ensures r.Some? ==> from <= r.value < len && Decimal(r.value) == k
    ensures r.None? ==> forall n :: from <= n < len ==> Decimal(n) != k
  {
    if from >= len then None
    else if Decimal(from) == k then Some(from)
    else IndexKey(k, len, from + 1)
  }

  /**
    `v[k]` for a value that is not `undefined`: an object's own field, the
    `length` or an element of an array or a string, and `undefined` otherwise.
  */
  function Prop(v: Value, k: string): (r: Value)
    ensures v.Obj? ==> r == Get(v.fields, k)
    ensures v.Arr? && k == "length" ==> r == Int(|v.elems|)
    ensures v.Str? && k == "length" ==> r == Int(|v.s|)
    ensures v.Undef? || v.Int? || v.Bool? ==> r == Undef
  {
    match v
    case Obj(m) => Get(m, k)
    case Arr(a) =>
      if k == "length" then Int(|a|)
      else (match IndexKey(k, |a|, 0)
            case Some(n) => a[n]
            case None => Undef)
    case Str(s) =>
      if k == "length" then Int(|s|)
      else (match IndexKey(k, |s|, 0)
            case Some(n) => Str([s[n]])
            case None => Undef)
    case _ => Undef
  }

  /**
    `v.name` for a property name that is neither `length` nor an array index
    (`id`, `error`, `nested`, ...): only an object can have one.
  */
  function Named(v: Value, name: string): (r: Value)
    ensures v.Obj? ==> r == Get(v.fields, name)
    ensures !v.Obj? ==> r == Undef
  {
    if v.Obj? then Get(v.fields, name) else Undef
  }

  /** Values whose spread `{...v}` this model computes exactly. */
  predicate Spreadable(v: Value) {
    v.Obj? || v.Undef? || v.Int? || v.Bool?
  }

  /** The fields `{...v}` copies: an object's own fields, nothing for a primitive. */
  function Spread(v: Value): (r: Record)
    requires Spreadable(v)
    ensures v.Obj? ==> r == v.fields
    ensures !v.Obj? ==> r == map[]
  {
    if v.Obj? then v.fields else map[]
  }

  /** `s.find(e => e.id === id)`: the first element whose `id` is `id`. */
  function FindById(s: seq<Value>, id: Value): (r: Option<Value>)
    ensures r.Some? ==> r.value in s && Prop(r.value, "id") == id
    ensures r.None? <==> forall i :: 0 <= i < |s| ==> Prop(s[i], "id") != id
    ensures r.Some? ==> exists i :: 0 <= i < |s| && s[i] == r.value &&
                          forall j :: 0 <= j < i ==> Prop(s[j], "id") != id
  {
    if s == [] then None
    else if Prop(s[0], "id") == id then Some(s[0])
    else
      var r := FindById(s[1..], id);
      if r.Some? then
        ghost var i :| 0 <= i < |s| - 1 && s[1..][i] == r.value && forall j :: 0 <= j < i ==> Prop(s[1..][j], "id") != id;
        assert s[i + 1] == r.value;
        assert forall j :: 0 <= j < i + 1 ==> Prop(s[j], "id") != id by {
          forall j | 0 <= j < i + 1
            ensures Prop(s[j], "id") != id
          {
            if j > 0 {
              assert s[j] == s[1..][j - 1];
            }
          }
        }
        r
      else
        assert forall j :: 1 <= j < |s| ==> s[j] == s[1..][j - 1];
        r
  }

  /** `s.filter(e => e.id !== id)`. */
  function WithoutId(s: seq<Value>, id: Value): (r: seq<Value>)
    ensures |r| <= |s|
    ensures forall x :: x in r <==> x in s && Prop(x, "id") != id
  {
    if s == [] then []
    else if Prop(s[0], "id") != id then [s[0]] + WithoutId(s[1..], id)
    else WithoutId(s[1..], id)
  }

  /** Filtering distributes over concatenation, so the kept elements keep their order. */
  lemma {:induction false} WithoutIdConcat(a: seq<Value>, b: seq<Value>, id: Value)
    ensures WithoutId(a + b, id) == WithoutId(a, id) + WithoutId(b, id)
  {
    if a == [] {
      assert a + b == b;
    } else {
      assert (a + b)[0] == a[0];
      assert (a + b)[1..] == a[1..] + b;
      WithoutIdConcat(a[1..], b, id);
    }
  }

  /** Filtering keeps a sequence none of whose elements carries the id. */
  lemma {:induction false} WithoutIdAbsent(s: seq<Value>, id: Value)
    requires forall i :: 0 <= i < |s| ==> Prop(s[i], "id") != id
    ensures WithoutId(s, id) == s
  {
    if s != [] {
      WithoutIdAbsent(s[1..], id);
    }
  }

  /** `s.map(e => e.id === id ? x : e)`: every element carrying the id becomes `x`. */
  function ReplaceId(s: seq<Value>, id: Value, x: Value): (r: seq<Value>)
    ensures |r| == |s|
    ensures forall i :: 0 <= i < |s| ==> r[i] == (if Prop(s[i], "id") == id then x else s[i])
  {
    seq(|s|, i requires 0 <= i < |s| => if Prop(s[i], "id") == id then x else s[i])
  }

  /** The property key a record's id becomes when it indexes an object. */
  function KeyOf(p: Record): string {
    ToJsString(Get(p, "id"))
  }

  /**
    `ps.reduce((acc, p) => ({...acc, [p.id]: p}), {})`: the payload indexed by the
    string form of each element's id, a later element overwriting an earlier one.
  */
  function IndexById(ps: seq<Record>): (r: map<string, Record>)
    ensures r.Keys == set p | p in ps :: KeyOf(p)
  {
    if ps == [] then map[]
    else
      var last := ps[|ps| - 1];
      var r := IndexById(ps[..|ps| - 1])[KeyOf(last) := last];
      assert forall p :: p in ps <==> p in ps[..|ps| - 1] || p == last by {
        assert ps == ps[..|ps| - 1] + [last];
      }
      r
  }

  /** The last element of `ps` whose id has the string form `k`. */
  predicate IsLastWithKey(ps: seq<Record>, k: string, p: Record) {
    exists i :: 0 <= i < |ps| && ps[i] == p && KeyOf(ps[i]) == k &&
      forall j :: i < j < |ps| ==> KeyOf(ps[j]) != k
  }

  /** Every entry of the index is the last payload element with that key. */
  lemma {:induction false} IndexByIdLast(ps: seq<Record>, k: string)
    requires k in IndexById(ps)
    ensures IsLastWithKey(ps, k, IndexById(ps)[k])
  {
    var n := |ps| - 1;
    var init, last := ps[..n], ps[n];
    assert IndexById(ps) == IndexById(init)[KeyOf(last) := last];
    assert ps == init + [last];
    if KeyOf(last) == k {
      assert ps[n] == last && KeyOf(ps[n]) == k;
    } else {
      IndexByIdLast(init, k);
      LastWithKeyExtend(init, last, k, IndexById(init)[k]);
    }
  }

  /** Appending an element with another key keeps the last element with `k`. */
  lemma LastWithKeyExtend(init: seq<Record>, last: Record, k: string, p: Record)
    requires IsLastWithKey(init, k, p) && KeyOf(last) != k
    ensures IsLastWithKey(init + [last], k, p)
  {
    var ps := init + [last];
    var i :| 0 <= i < |init| && init[i] == p && KeyOf(init[i]) == k &&
      forall j :: i < j < |init| ==> KeyOf(init[j]) != k;
    assert ps[i] == p;
    forall j | i < j < |ps|
      ensures KeyOf(ps[j]) != k
    {
      if j < |init| {
        assert ps[j] == init[j];
      }
    }
  }

  /**
    `s.map(e => index[e.id] !== undefined ? index[e.id] : e)`: replace every element
    whose id has an entry in the index.
  */
  function ReplaceByIndex(s: seq<Value>, index: map<string, Record>): (r: seq<Value>)
    ensures |r| == |s|
    ensures forall i :: 0 <= i < |s| && ToJsString(Prop(s[i], "id")) !in index ==> r[i] == s[i]
    ensures forall i :: 0 <= i < |s| && ToJsString(Prop(s[i], "id")) in index ==>
              r[i] == Obj(index[ToJsString(Prop(s[i], "id"))])
  {
    seq(|s|, i requires 0 <= i < |s| =>
      var k := ToJsString(Prop(s[i], "id"));
      if k in index then Obj(index[k]) else s[i])
  }

  /**
    The bulk replacement both the collection store and the nested workspace
    promise: same length and order; an element whose id has no payload entry is
    unchanged; one that has takes the LAST payload element with that id.
  */
  lemma ReplaceByIndexMeaning(s: seq<Value>, ps: seq<Record>, i: int)
    requires 0 <= i < |s|
    ensures var r := ReplaceByIndex(s, IndexById(ps));
            var k := ToJsString(Prop(s[i], "id"));
            && |r| == |s|
            && ((forall p :: p in ps ==> KeyOf(p) != k) ==> r[i] == s[i])
            && ((exists p :: p in ps && KeyOf(p) == k) ==>
                  r[i].Obj? && IsLastWithKey(ps, k, r[i].fields))
  {
    var k := ToJsString(Prop(s[i], "id"));
    if k in IndexById(ps) {
      IndexByIdLast(ps, k);
    }
  }
}
